=== FILE: README.md ===
# Gophermart loyalty service — a Dafny model

Gophermart is a loyalty backend. Registered users upload order numbers, and a
background loader asks an external accrual service how each order was scored.
The loader writes the verdict into the order row and credits the accrual to the
owner's balance. Users can spend the balance through withdrawals. This project
models the following parts:

- **HTTP handlers** (`handlers.dfy`, module `Handlers`): registration, order
  upload, withdrawal, and the listings of orders and of withdrawals. Each is a
  function from the store and the request to the status code the client sees
  and the store left behind, or to a panic that sends no status line at all.
  Only the first status line written reaches the client.
- **Storage** (`depository.dfy`, `orders.dfy`, `users.dfy`): the rows the
  handlers and the loader read and write, and every storage call they make.
  Database failures are boolean parameters, one per statement that can fail.
- **Loader** (`loader.dfy`, `loader_run.dfy`): one polling round and the
  endless polling loop. A round classifies replies, fans the requests out to
  one worker per listed order, merges the workers' records in any order, and
  applies the batch in a single transaction. The loop's trace covers any number
  of rounds.
- **Configuration** (`configurer.dfy`): parsing and printing of
  `host:port` addresses.
- **Support** (`text.dfy`, `numbers.dfy`, `luhn.dfy`): the library behaviour
  the core depends on. It covers Go's `strings.Split`, `Index` and `Contains`,
  `strconv.Itoa` and `Atoi` on a 64-bit platform (including the value `Atoi`
  returns together with an error), and the Luhn check digit of ISO/IEC 7812-1.

Money is an integer count of hundredths. Order statuses are stored as text
because the loader stores whatever text the accrual service sends. `Orders.Status`
names the five statuses the service knows.

Two points where the program's own pieces need a reading:

- The loader polls only NEW and PROCESSING orders (`cmd/depository/orders.go:87`).
  An order the accrual service reports as REGISTERED is stored with that
  status and is never polled again (`LoaderRun.SettledStaysSettled`).
- `UserRegister` returns an id and an error. The register handler uses the
  call as a condition; here it succeeds exactly when the error is nil.

## Model

| member | source | states |
|---|---|---|
| Orders.NameParse | cmd/depository/orders.go:12-18 | the five status names differ from one another, and reading a status name gives the status back |
| Orders.PendingStatuses | cmd/depository/orders.go:83-106 | the listing picks up an order exactly when its status is NEW or PROCESSING |
| Orders.OrderGetOrdersInProcess | cmd/depository/orders.go:83-106 | a failed query is reported as an error; otherwise the result lists every pending order exactly once and nothing else |
| Orders.OrderUserCheck | cmd/depository/orders.go:38-49 | a known order gives its owner's id with no error; an unknown order gives 0 with ErrNoRows; a failed query gives -1 with a database error |
| Orders.OrderNew | cmd/depository/orders.go:51-58 | the insert fails exactly when the number is taken or the statement fails; on success only the new row is added, as NEW with zero accrual and owned by the caller |
| Orders.UserOrders | cmd/depository/orders.go:60-81 | the numbers of the orders linked to a user; Orders.UserOrdersPartition shows the listings of different users are disjoint and cover every stored order, and Handlers.LoadThenList that an accepted order is listed for its owner |
| Orders.OrderNewIsPending | cmd/depository/orders.go:52-87 | a successful insert adds exactly the new number to the orders the loader lists |
| Orders.StatusUpdate | cmd/loader/loader.go:44 | the status write changes status and accrual of the named row and keeps its owner; every other row and the set of numbers stay the same |
| Orders.UserOrdersPartition | cmd/depository/orders.go:60-81 | no order is listed for two users, and every stored order is listed for its owner |
| Orders.OrderNewKeepsStatusesKnown | cmd/depository/orders.go:51-58 | inserting an order keeps every stored status one of the five names |
| Users.BalanceUpdate | cmd/depository/users.go:163-171 | the update adds to the named user's balance and withdrawn amount; every other user and the set of accounts stay the same |
| Users.BalanceUpdatesAdd | cmd/depository/users.go:163-171 | two updates of one user equal a single update by the sums |
| Users.BalanceUpdatesCommute | cmd/depository/users.go:163-171 | updates give the same result in either order, for any two users |
| Users.BalanceUpdateUndo | cmd/depository/users.go:163-171 | the opposite update restores the accounts |
| Users.UserCheckExistLogin | cmd/depository/users.go:27-32 | a login counts as taken only when the lookup succeeds and finds it, and a failed query reads as free; Handlers.RegisterOutcomes and Handlers.RegisterTwiceConflicts show the 409 it leads to |
| Users.UserRegister | cmd/depository/users.go:46-72 | registration fails with id -1 and no change when the transaction cannot start, the login is taken, or either insert fails; otherwise the user gets the next id and an empty balance row |
| Users.RegisterStartsEmpty | cmd/depository/users.go:46-72 | registration keeps ids positive, unique and backed by balance rows; a new user starts with zero balance and zero withdrawn, under an id not used before |
| Users.UserAuthorization | cmd/depository/users.go:74-95 | there is no error exactly when login and password match a stored user, and then the result is that user's id; a mismatch gives 0 with ErrNoRows; a failed query gives -1 |
| Users.RegisterThenAuthorize | cmd/depository/users.go:46-95 | after a registration the same credentials log in as the new id, and a different password is refused |
| Users.UserGetBalance | cmd/depository/users.go:98-107 | the query succeeds exactly when it does not fail and the user has a balance row; the result is that row |
| Users.UserWithdrawal | cmd/depository/users.go:110-137 | a sum above the balance gives ErrInsufficientBalance; a failed read, begin or journal insert gives a storage error; when only the balance update fails, the call still reports success and nothing is stored |
| Users.WithdrawalMovesSum | cmd/depository/users.go:125-135 | a committed withdrawal moves exactly the sum from balance to withdrawn and journals one row carrying the new balance |
| Users.WithdrawWholeBalance | cmd/depository/users.go:116 | the balance check is strict, so withdrawing the whole balance succeeds and leaves zero |
| Users.NegativeSumRaisesBalance | cmd/depository/users.go:116-131 | nothing rejects a negative sum; such a withdrawal raises the balance |
| Users.WithdrawalsOf | cmd/depository/users.go:140-161 | every listed withdrawal belongs to the user |
| Users.WithdrawalsOfCounts | cmd/depository/users.go:143 | the list holds each of the user's journal rows exactly as often as the journal does, and no other row |
| Users.WithdrawalsOfAppend | cmd/depository/users.go:143 | the newest withdrawal comes first in its user's list |
| Users.UserGetWithdrawals | cmd/depository/users.go:140-161 | a failed query is an error; otherwise the result is exactly the user's journal rows, with multiplicity |
| Loader.Classify | cmd/loader/loader.go:176-217 | a transport error gives no record; 204 gives INVALID with zero accrual; 429 and 500 give a record with no status; 200 gives the decoded status and accrual; any other code gives nothing; every record names the requested order |
| Loader.UndecodableGivesEmptyVerdict | cmd/loader/loader.go:203-214 | a 200 reply whose body does not decode still sends a record, with no status and zero accrual |
| Loader.Requests | cmd/loader/loader.go:84-123 | each of the n workers requests one order, so there are exactly n requests; Loader.RequestsEveryOrder and Loader.RequestedOnce give which orders they are |
| Loader.RequestsEveryOrder | cmd/loader/loader.go:84-123 | with one worker per listed order, the workers request exactly the listed orders |
| Loader.RequestedOnce | cmd/loader/loader.go:73-75 | each listed order is requested exactly once, and no other order is requested |
| Loader.ExtraWorkersRequestZero | cmd/loader/loader.go:176-181 | a fanOut worker that finds the generator's channel closed requests order 0; the only caller (loader.go:75) starts one worker per order, so this does not arise there |
| Loader.Collect | cmd/loader/loader.go:125-162 | the merge carries at most one record per request, and every record is about a requested order |
| Loader.CollectComplete | cmd/loader/loader.go:125-162 | every record a worker sends reaches the merge |
| LoaderRun.DeliveredVerdictIsLast | cmd/loader/loader.go:140-162 | the record a listed order's reply gives is delivered, and it is the only delivered record about that order |
| Loader.CollectSource | cmd/loader/loader.go:140-153 | every merged record is the classification of one request's reply |
| Loader.CollectDistinct | cmd/loader/loader.go:125-162 | distinct requests give records about distinct orders |
| Loader.Step | cmd/loader/loader.go:43-59 | one iteration of the batch loop; Loader.StepsCommute shows steps about different orders commute, and Loader.FoldAborts and Loader.UpdateOrderReference give its failure and success effects |
| Loader.Fold | cmd/loader/loader.go:42-60 | the batch loop over the merged records in arrival order; Loader.FoldFrame gives its frame, Loader.FoldAborts the rollback, Loader.UpdateOrderReference the committed result and Loader.FoldPermutation its independence of the arrival order |
| Loader.FoldFrame | cmd/loader/loader.go:42-60 | the batch loop keeps the users, the withdrawal journal, the set of orders and accounts, every order's owner and every withdrawn amount |
| Loader.FoldAborts | cmd/loader/loader.go:44-58 | once any write of the shared transaction fails, the batch ends rolled back to the committed state |
| Loader.UpdateOrder | cmd/loader/loader.go:32-62 | the batch changes nothing when the transaction cannot be opened or when any write fails, and otherwise keeps users, withdrawals, owners and withdrawn amounts |
| Loader.LastVerdict | cmd/loader/loader.go:42-44 | the chosen record has a status and is about the order; when there is none, no record with a status is about the order |
| Loader.UpdateOrderReference | cmd/loader/loader.go:37-61 | a committed batch leaves each order with its last verdict that has a status, credits each user the accruals of the records about their orders, and leaves withdrawn amounts alone |
| Loader.EmptyStatusesChangeNothing | cmd/loader/loader.go:43 | records without a status change nothing, whatever fails |
| Loader.EmptyCreditsNothing | cmd/loader/loader.go:43 | records without a status credit nothing |
| Loader.StatusUpdatesCommute | cmd/loader/loader.go:44 | status writes to different orders commute |
| Loader.StepsCommute | cmd/loader/loader.go:43-58 | records about different orders can be applied in either order with the same result |
| Loader.FoldPermutation | cmd/loader/loader.go:42-60 | rearranging records about distinct orders does not change the batch's outcome |
| Loader.ArrivalOrderIrrelevant | cmd/loader/loader.go:125-162 | the outcome of updateOrder does not depend on the order in which the merge delivers the records |
| Loader.UpdateOrdersStatuses | cmd/loader/loader.go:70-82 | the round requests exactly the listed orders, always returns an error, changes nothing for an empty list, and delivers records only about listed orders, at most one each |
| Loader.DeliveredAbout | cmd/loader/loader.go:125-162 | the delivered records are about listed orders, and no order appears twice |
| Loader.SameOrderSameRecord | cmd/loader/loader.go:164-217 | two merged records about one order are the same record |
| LoaderRun.Cycle | cmd/loader/loader.go:220-231 | a failed listing leaves the store unchanged; otherwise the tick applies the delivered records as one batch, inside the batch's frame |
| LoaderRun.StartLoader | cmd/loader/loader.go:220-231 | the trace starts at the initial store and has one more store than there are ticks |
| LoaderRun.TraceSteps | cmd/loader/loader.go:220-231 | each store of the trace is the previous store after its tick |
| LoaderRun.UntouchedWithoutVerdict | cmd/loader/loader.go:42-60 | a batch with no record with a status about an order leaves that order's row alone |
| LoaderRun.CycleKeepsSettled | cmd/loader/loader.go:223-228 | an order that is neither NEW nor PROCESSING is not listed, no delivered record is about it, it adds nothing to any credit, and no tick changes its row |
| LoaderRun.SettledStaysSettled | cmd/loader/loader.go:220-231 | once an order has left NEW and PROCESSING, its row stays the same for the rest of the run, it is never listed again, and no later tick delivers a record about it, so it is never credited again |
| LoaderRun.ListingFailureIdles | cmd/loader/loader.go:223-225 | a tick whose listing fails leaves the store as it was |
| LoaderRun.DeferredReplyKeepsOrder | cmd/loader/loader.go:183-202 | a listed order whose reply is a transport error, 429, 500 or another unexpected code keeps its row unchanged, so a pending order is still pending for the next tick |
| LoaderRun.ClassifiedReplyApplied | cmd/loader/loader.go:42-61 | in a committed round, a listed order whose reply gives a record with a status ends with that status and accrual, and its owner is credited that accrual plus what the records about the owner's other orders give |
| LoaderRun.CreditsNotNegative | cmd/loader/loader.go:55 | accruals that are not negative credit a non-negative total |
| LoaderRun.BatchNeverLowersBalances | cmd/loader/loader.go:55 | with accruals that are not negative, a batch never lowers a balance or changes a withdrawn amount |
| LoaderRun.KnownStatusesStayKnown | cmd/loader/loader.go:44 | when every record's status is empty or one of the five names, every stored status stays one of the five names |
| LoaderRun.ProcessedAndInvalid | cmd/loader/loader.go:189-214 | two NEW orders answered 200 PROCESSED 50.00 and 204 end PROCESSED with 50.00 credited to the first owner and INVALID with nothing credited to the second, in either arrival order |
| LoaderRun.TooManyRequestsChangesNothing | cmd/loader/loader.go:196-202 | a 429 for the only listed order leaves it NEW |
| Handlers.GetBody | cmd/gophermart/handlers.go:29-39 | the body is returned exactly when it could be read and is non-empty; otherwise the error is the read error or errBodyIsEmpty |
| Handlers.ParseCredentials | cmd/gophermart/handlers.go:40-59 | parsing succeeds exactly when a non-empty body decodes to a login and a password that are both non-empty; a `null` body exactly leads to the nil dereference; otherwise it returns the body error, the decode error, or the joined empty-field errors |
| Handlers.Register | cmd/gophermart/handlers.go:62-86 | the handler panics, leaving the store as it was, exactly when parse dereferences a nil receiver; otherwise the answer is 200, 400, 409 or 500, and the store changes only when a valid request registers a fresh login |
| Handlers.RegisterOutcomes | cmd/gophermart/handlers.go:62-86 | for a JSON request: an empty field or empty body gives 400, a taken login gives 409, and a fresh login gives 200 exactly when registration succeeds |
| Handlers.RegisterMalformedBody | cmd/gophermart/handlers.go:67-73 | a body that does not decode gives 500, not 400 |
| Handlers.RegisterWrongContentTypeStillStores | cmd/gophermart/handlers.go:63-65 | a non-JSON content type gives 400, yet a valid request still registers the user |
| Handlers.RegisterTwiceConflicts | cmd/gophermart/handlers.go:75-79 | a second registration of the same login gives 409 and changes nothing |
| Handlers.RegisterNullPanics | cmd/gophermart/handlers.go:40-50 | a `null` body sets the receiver to nil without a decode error, so reading the login panics: whatever the Content-Type, no status line is sent and nothing is stored |
| Handlers.LoadOrder | cmd/gophermart/handlers.go:124-181 | an unauthenticated caller gets 401 with no change; only a 202 changes the store |
| Handlers.LoadOrderOutcomes | cmd/gophermart/handlers.go:124-181 | for an authorized plain-text request: a non-number or a Luhn failure gives 422, the caller's own order gives 200, another user's order gives 409, and a new order gives 202 unless the insert fails |
| Handlers.LoadOrderTwice | cmd/gophermart/handlers.go:162-174 | after an upload, the same user's second upload gives 200 and another user's gives 409, with no change either way |
| Handlers.LoadOrderAcceptsNew | cmd/gophermart/handlers.go:176-178 | a new Luhn-valid order is stored as NEW for the caller, and nothing else changes |
| Handlers.LoadOrderAcceptsNegative | cmd/gophermart/handlers.go:143-180 | a negative multiple of 10 parses, passes the Luhn check and is stored as a new order |
| Handlers.LoadOrderRejectsBadNumber | cmd/gophermart/handlers.go:143-160 | a body that is not a Luhn-valid number gives 422 with no change |
| Handlers.LoadOrderVectors | cmd/gophermart/handlers_test.go:471-600 | 12345678903 is accepted and 12345678910 is refused with 422 |
| Handlers.TestOrderTexts | cmd/gophermart/handlers_test.go:1076-1113 | Atoi reads the test order texts as their numbers and rejects "a12345678900" as a syntax error |
| Handlers.Withdraw | cmd/gophermart/handlers.go:239-279 | an unauthenticated caller gets 401 with no change; only a 200 changes the store |
| Handlers.WithdrawOutcomes | cmd/gophermart/handlers.go:269-278 | for a Luhn-valid order number, 402 comes exactly when the sum exceeds the balance; a 200 whose balance update went through moves the sum from balance to withdrawn and journals the withdrawal |
| Handlers.WithdrawRejectsBadNumber | cmd/gophermart/handlers.go:257-268 | an order text that is not a Luhn-valid number gives 422 with no change |
| Handlers.WithdrawVectors | cmd/gophermart/handlers_test.go:1058-1113 | 100.00 against an empty balance gives 402; the orders 12345678900 and a12345678900 give 422 |
| Handlers.GetOrders | cmd/gophermart/handlers.go:184-208 | a body comes exactly with 200 and is the caller's orders; with no failures, no orders gives 204 and some orders give 200 |
| Handlers.LoadThenList | cmd/gophermart/handlers.go:176-207 | an order accepted with 202 then appears in its owner's listing |
| Handlers.GetWithdrawals | cmd/gophermart/handlers.go:282-306 | a body comes exactly with 200 and is the caller's withdrawals, newest first; with no failures, none gives 204 |
| Handlers.WithdrawThenList | cmd/gophermart/handlers.go:269-305 | a committed withdrawal heads its user's listing |
| Numbers.AtoiItoa | internal/configurer/configurer.go:51-53 | Atoi reads back what Itoa prints, for every 64-bit int |
| Numbers.AtoiRejectsNonDigit | cmd/gophermart/handlers.go:149-154 | text with a non-digit after the first character is never a number |
| Numbers.ScanNatDigits | cmd/gophermart/handlers.go:149 | the digit scan of a number's own decimal digits gives the number |
| Luhn.ValidMatchesText | cmd/gophermart/handlers.go:156 | the arithmetic Luhn test on a number agrees with the test over its decimal digits |
| Luhn.CheckDigitUnique | cmd/gophermart/handlers.go:156-160 | exactly one final digit makes a payload valid, so changing only the check digit is always caught |
| Luhn.NegativeMultiplesOfTen | cmd/gophermart/handlers.go:156 | every negative multiple of 10 passes the check, while its positive counterpart passes only when 0 is the check digit of its other digits |
| Luhn.TestVectors | cmd/gophermart/handlers_test.go:471-600 | 12345678903 and 12345678911 pass the Luhn test, while 12345678910 and 12345678900 fail |
| Text.JoinSplit | internal/configurer/configurer.go:103 | splitting loses nothing: joining the pieces with the separator gives the text back |
| Text.SplitPiecesFree | internal/configurer/configurer.go:111 | no piece of a split contains the separator |
| Configurer.Show | internal/configurer/configurer.go:51-53 | the host, a colon and the decimal port; Configurer.ShowRoundTrip and Configurer.SetShowRoundTrip show that parsing it gives the address back |
| Configurer.CheckNetAddress | internal/configurer/configurer.go:101-132 | checkNetAddress; its cases are given by Configurer.TwoSchemesRejected, Configurer.SchemeStripped, Configurer.ExtraColonRejected, Configurer.BareHostPanics, Configurer.RejectedHost and Configurer.HostWithPort |
| Configurer.Set | internal/configurer/configurer.go:56-63 | NetAddress.Set; Configurer.SetStoresRejectedHost shows it stores what checkNetAddress returned even on error, and Configurer.SetShowRoundTrip that it stores an address given in its own printed form unchanged |
| Configurer.ShowRoundTrip | internal/configurer/configurer.go:51-132 | parsing the printed form of an address with an accepted host gives the address back, failing exactly when the port is outside 0..65535 |
| Configurer.SetShowRoundTrip | internal/configurer/configurer.go:56-63 | setting an address from its own printed form stores it unchanged, without error |
| Configurer.HostWithPort | internal/configurer/configurer.go:118-131 | for an accepted host, an empty port keeps the default; otherwise the port is what Atoi returned, with an error unless it is a number in 0..65535 |
| Configurer.RejectedHost | internal/configurer/configurer.go:118-123 | a host that is neither an IP nor localhost fails, but is returned as host along with the default port |
| Configurer.SetStoresRejectedHost | internal/configurer/configurer.go:56-63 | Set stores what checkNetAddress returned even when it reports an error |
| Configurer.BareHostPanics | internal/configurer/configurer.go:118-124 | an accepted host with no colon reads a port piece that does not exist |
| Configurer.SchemeStripped | internal/configurer/configurer.go:103-110 | a scheme before "://" is dropped and the rest is parsed alone |
| Configurer.TwoSchemesRejected | internal/configurer/configurer.go:103-107 | two "://" give the defaults and an error |
| Configurer.ExtraColonRejected | internal/configurer/configurer.go:111-115 | two colons after any scheme give the defaults and an error |
| Configurer.DottedQuad | internal/configurer/configurer.go:119 | four octets joined by dots form an IPv4 host |
| Configurer.IPv4IsDottedQuad | internal/configurer/configurer.go:119 | every IPv4 host is four octets joined by dots |
| Configurer.DottedDecimalAccepted | internal/configurer/configurer.go:119-120 | any four byte values written in dotted-decimal form are an accepted host |
| Configurer.ValidHostColonFree | internal/configurer/configurer.go:111-120 | accepted hosts contain no colon |

## Left out

- Goroutines, channels, cancellation and `time.Sleep` are not modelled. The
  merge is any arrangement of the workers' records (`Loader.Delivery`), and the
  polling loop is a finite sequence of ticks.
- The HTTP client, JSON encoding and decoding, and the request context are
  inputs. A reply is a status code plus what `json.Unmarshal` left behind. A
  decoded credentials body is a record, a decode error, or `null`; a decoded
  withdraw body is an `Option`, since `null` there leaves the zero record. The marshalling failures of the list handlers
  are boolean inputs.
- SQL text, Postgres behaviour and commit failures are not modelled.
  Statements are map updates. Each statement that can fail has a boolean fault
  input, and `Commit` is assumed to succeed.
- UserRegister's balance-row insert runs outside the transaction in the code.
  The model treats it as part of the registration. The id sequence advancing on
  a failed insert is not modelled either.
- Password hashing is not modelled. The stored credential is the password text,
  so `UserAuthorization` compares texts.
- Money is `float64` in the code. Here it is an integer count of hundredths, so
  rounding is out of scope.
- Timestamps (RFC 3339 `uploaded_at` and `processed_at`) and the listing order
  by time are left out. `GetOrders` answers with the set of the caller's order
  numbers, and the withdrawal journal is kept in commit order.
- OrderStatusUpdate is not part of this model. `Orders.StatusUpdate` takes it to
  set status and accrual of the named row.
- The Luhn package is not part of this model. `Luhn.Valid` follows that
  package's `Valid`: the standard test on the decimal digits of a non-negative
  number, while a negative number passes exactly when it is a multiple of 10,
  because the package's digit loop stops at once on a negative number. So the
  handlers accept an order text such as "-10" (`Handlers.LoadOrderAcceptsNegative`).
- The login and balance handlers and the authentication middleware are not
  modelled. An authenticated caller is a positive user id, or no id at all.
- Flag and environment parsing, and the `InitializeConfigurer` defaults, are not
  modelled. Neither is the environment reader's handling of the accrual address,
  which it never applies while setting the database address twice.
- `DatabasePath.Set` and `String` are not modelled. `Set` stores its text
  verbatim and never fails, and `String` returns it, so there is nothing to
  prove about them.
- OrderNew and the order listing are modelled as intended, not as written.
  The insert at `cmd/depository/orders.go:52` passes the function `time.Now`
  uncalled as a parameter and nests an `INSERT ... RETURNING` inside `VALUES`
  with an unbalanced parenthesis. The query at `cmd/depository/orders.go:63`
  reads columns and a `user_orders` table the schema does not have. The model's
  successful insert and listing are the map updates these statements were meant
  to perform.
- A panicking handler is modelled as `Handlers.Panicked`, with no status line
  and no change. The server's own recovery, which logs the panic and drops the
  connection, is not modelled.
- `net.ParseIP` is modelled only for colon-free hosts, since only those reach
  it. It accepts dotted-quad IPv4 without leading zeros, as Go 1.17 and later
  do.

=== FILE: common.dfy ===
/** Small failure-carrying datatypes shared by the whole model. */
module Common {

  /** A value that may be absent, as a Go `nil` or a missing row. */
  datatype Option<+T> = None | Some(value: T)

  /** Either a value or one of the errors Go would return beside it. */
  datatype Result<+T, +E> = Ok(value: T) | Err(error: E)
}

=== FILE: configurer.dfy ===
/** The address settings of the service: parsing `host:port` texts with an
    optional `scheme://` prefix, rendering them back, and the database path. */
module Configurer {
  import opened Numbers
  import Text

  const MaxPort := 65535

  /** A host and a port, as the server and accrual addresses are kept. */
  datatype NetAddress = NetAddress(host: string, port: int)

  /** NetAddress.String: host, a colon, the port in decimal. */
  function Show(n: NetAddress): string {
    n.host + ":" + Itoa(n.port)
  }

  predicate ColonFree(s: string) {
    forall i :: 0 <= i < |s| ==> s[i] != ':'
  }

  /** One field of a dotted quad as net.ParseIP reads it: one to three digits,
      no leading zero, at most 255. */
  predicate IsOctet(f: string) {
    && 1 <= |f| <= 3 && AllDigits(f)
    && (|f| > 1 ==> f[0] != '0')
    && ScanDigits(f, 0).Scanned? && ScanDigits(f, 0).value <= 255
  }

  /** A text without colons that net.ParseIP accepts: exactly four octets
      separated by dots. */
  predicate IsIPv4(s: string) {
    var fields := Text.Split(s, ".");
    |fields| == 4 && forall i :: 0 <= i < 4 ==> IsOctet(fields[i])
  }

  /** The hosts checkNetAddress accepts. */
  predicate ValidHost(h: string) {
    h == "localhost" || IsIPv4(h)
  }

  /** checkNetAddress's `(host, port, err)`, or the run-time panic of reading a
      port that is not there. */
  datatype AddrOutcome = Checked(host: string, port: int, failed: bool) | IndexPanic

  /** checkNetAddress with defaults `h` and `p`. More than one "://" or, after
      it, more than one ":" keeps the defaults and fails. A host that is neither
      an IP nor "localhost" fails but is still returned. A valid host without a
      ":" reads past the end of the pieces. An empty port keeps `p`; a port that
      is not a number in 0..65535 fails with whatever strconv.Atoi returned. */
  function CheckNetAddress(s: string, h: string, p: int): AddrOutcome {
    var v := Text.Split(s, "://");
    if |v| > 2 then Checked(h, p, true)
    else
      var rest := if |v| == 2 then v[1] else s;
      var a := Text.Split(rest, ":");
      if |a| > 2 then Checked(h, p, true)
      else if !ValidHost(a[0]) then Checked(a[0], p, true)
      else if |a| < 2 then IndexPanic
      else if a[1] == "" then Checked(a[0], p, false)
      else
        var parsed := Atoi(a[1]);
        var port := parsed.Returned();
        Checked(a[0], port, !parsed.Num? || port < 0 || port > MaxPort)
  }

  /** NetAddress.Set: stores what checkNetAddress returned even when it failed. */
  datatype SetOutcome = Stored(address: NetAddress, failed: bool) | Panicked

  function Set(n: NetAddress, s: string): SetOutcome {
    match CheckNetAddress(s, n.host, n.port)
    case Checked(host, port, failed) => Stored(NetAddress(host, port), failed)
    case IndexPanic => Panicked
  }

  // ---------------------------------------------------------------------------
  // Character facts.

  lemma {:induction false} JoinedDigitsColonFree(parts: seq<string>)
    requires forall i :: 0 <= i < |parts| ==> AllDigits(parts[i])
    ensures ColonFree(Text.Join(parts, "."))
  {
    if |parts| > 1 {
      JoinedDigitsColonFree(parts[1..]);
      var j := Text.Join(parts[1..], ".");
      var s := parts[0] + "." + j;
      forall i | 0 <= i < |s| ensures s[i] != ':' {
        if i < |parts[0]| {
          assert IsDigit(parts[0][i]);
        } else if i > |parts[0]| {
          assert s[i] == j[i - |parts[0]| - 1];
        }
      }
    } else if |parts| == 1 {
      assert forall i :: 0 <= i < |parts[0]| ==> IsDigit(parts[0][i]);
    }
  }

  /** Accepted hosts contain no colon. */
  lemma ValidHostColonFree(h: string)
    requires ValidHost(h)
    ensures ColonFree(h)
  {
    if h != "localhost" {
      var fields := Text.Split(h, ".");
      Text.JoinSplit(h, ".");
      JoinedDigitsColonFree(fields);
    }
  }

  /** strconv.Itoa writes digits and possibly a leading minus sign. */
  lemma ItoaChars(n: int)
    ensures |Itoa(n)| >= 1
    ensures forall i :: 0 <= i < |Itoa(n)| ==> IsDigit(Itoa(n)[i]) || (i == 0 && Itoa(n)[i] == '-')
  {
    if n < 0 {
      var d := NatDigits(-n);
      assert forall i :: 1 <= i < |Itoa(n)| ==> Itoa(n)[i] == d[i - 1];
    }
  }

  // ---------------------------------------------------------------------------
  // Splitting facts for the shapes of address text.

  /** `a + ":" + t` with both sides colon-free splits at the one colon. */
  lemma HostPortColon(a: string, t: string)
    requires ColonFree(a) && ColonFree(t)
    ensures Text.Split(a + ":" + t, ":") == [a, t]
  {
    var s := a + ":" + t;
    forall k ensures Text.OccursAt(s, ":", k) <==> k == |a| {
      if k == |a| {
        assert s[k..k + 1] == ":";
      } else if 0 <= k < |s| {
        assert s[k..k + 1] == [s[k]];
        if k < |a| {
          assert s[k] == a[k];
        } else {
          assert s[k] == t[k - |a| - 1];
        }
      }
    }
    Text.SplitOne(a, ":", t);
  }

  /** ... and contains no "://" unless `t` starts with a slash. */
  lemma HostPortNoScheme(a: string, t: string)
    requires ColonFree(a) && ColonFree(t) && (|t| == 0 || t[0] != '/')
    ensures Text.Split(a + ":" + t, "://") == [a + ":" + t]
  {
    var s := a + ":" + t;
    forall k | Text.OccursAt(s, "://", k) ensures false {
      Text.OccursAtChar(s, "://", k, 0);
      Text.OccursAtChar(s, "://", k, 1);
    }
    Text.ContainsMeansOccurs(s, "://");
    Text.SplitNone(s, "://");
  }

  /** A colon-free text has no "://" and splits into itself at ":". */
  lemma BareSplits(a: string)
    requires ColonFree(a)
    ensures Text.Split(a, "://") == [a]
    ensures Text.Split(a, ":") == [a]
  {
    forall k | Text.OccursAt(a, ":", k) || Text.OccursAt(a, "://", k) ensures false {
      Text.OccursAtChar(a, ":", k, 0);
      Text.OccursAtChar(a, "://", k, 0);
    }
    Text.ContainsMeansOccurs(a, ":");
    Text.ContainsMeansOccurs(a, "://");
    Text.SplitNone(a, "://");
    Text.SplitNone(a, ":");
  }

  // ---------------------------------------------------------------------------
  // What checkNetAddress answers, shape by shape.

  /** `host:port` with an accepted host: an empty port keeps the default; a port
      text is read with strconv.Atoi and fails unless it is a number in 0..65535,
      in which case the returned port is the one Atoi gave. */
  lemma HostWithPort(host: string, t: string, dh: string, dp: int)
    requires ValidHost(host) && ColonFree(t) && (|t| == 0 || t[0] != '/')
    ensures t == "" ==> CheckNetAddress(host + ":" + t, dh, dp) == Checked(host, dp, false)
    ensures t != "" ==>
      var parsed := Atoi(t);
      CheckNetAddress(host + ":" + t, dh, dp)
        == Checked(host, parsed.Returned(), !(parsed.Num? && 0 <= parsed.value <= MaxPort))
  {
    ValidHostColonFree(host);
    HostPortColon(host, t);
    HostPortNoScheme(host, t);
  }

  /** A rejected host is reported with the default port, but the rejected text
      is what comes back as host. */
  lemma RejectedHost(x: string, t: string, dh: string, dp: int)
    requires !ValidHost(x) && ColonFree(x) && ColonFree(t) && (|t| == 0 || t[0] != '/')
    ensures CheckNetAddress(x + ":" + t, dh, dp) == Checked(x, dp, true)
    ensures CheckNetAddress(x, dh, dp) == Checked(x, dp, true)
  {
    HostPortColon(x, t);
    HostPortNoScheme(x, t);
    BareSplits(x);
  }

  /** An accepted host with no ":" panics, since the port piece is read
      without checking that it exists. */
  lemma BareHostPanics(host: string, dh: string, dp: int)
    requires ValidHost(host)
    ensures CheckNetAddress(host, dh, dp) == IndexPanic
  {
    ValidHostColonFree(host);
    BareSplits(host);
  }

  /** A scheme prefix is dropped: everything after the one "://" is parsed alone. */
  lemma SchemeStripped(scheme: string, rest: string, dh: string, dp: int)
    requires ColonFree(scheme) && !Text.Contains(rest, "://")
    ensures CheckNetAddress(scheme + "://" + rest, dh, dp) == CheckNetAddress(rest, dh, dp)
  {
    var s := scheme + "://" + rest;
    forall k | Text.OccursAt(s, "://", k) ensures k == |scheme| {
      Text.OccursAtChar(s, "://", k, 0);
      Text.OccursInSuffix(scheme + "://", rest, "://", k);
      Text.ContainsMeansOccurs(rest, "://");
    }
    assert Text.OccursAt(s, "://", |scheme|) by {
      assert s[|scheme|..|scheme| + 3] == "://";
    }
    Text.SplitOne(scheme, "://", rest);
    Text.SplitNone(rest, "://");
  }

  /** Two "://" in the text: the defaults come back with an error. */
  lemma TwoSchemesRejected(s: string, k1: int, k2: int, dh: string, dp: int)
    requires Text.OccursAt(s, "://", k1) && Text.OccursAt(s, "://", k2) && k1 + 3 <= k2
    ensures CheckNetAddress(s, dh, dp) == Checked(dh, dp, true)
  {
    Text.SplitTwo(s, "://", k1, k2);
  }

  /** Two ":" after any scheme: the defaults come back with an error. */
  lemma ExtraColonRejected(s: string, k1: int, k2: int, dh: string, dp: int)
    requires !Text.Contains(s, "://")
    requires Text.OccursAt(s, ":", k1) && Text.OccursAt(s, ":", k2) && k1 < k2
    ensures CheckNetAddress(s, dh, dp) == Checked(dh, dp, true)
  {
    Text.SplitNone(s, "://");
    Text.SplitTwo(s, ":", k1, k2);
  }

  /** Rendering an address and parsing the text back gives the address, with an
      error exactly when the port is outside 0..65535. */
  lemma ShowRoundTrip(n: NetAddress, dh: string, dp: int)
    requires ValidHost(n.host) && MinInt64 <= n.port <= MaxInt64
    ensures CheckNetAddress(Show(n), dh, dp) == Checked(n.host, n.port, !(0 <= n.port <= MaxPort))
  {
    var t := Itoa(n.port);
    ItoaChars(n.port);
    assert ColonFree(t) by {
      forall i | 0 <= i < |t| ensures t[i] != ':' {
        assert IsDigit(t[i]) || t[i] == '-';
      }
    }
    assert t[0] != '/' by { assert IsDigit(t[0]) || t[0] == '-'; }
    AtoiItoa(n.port);
    HostWithPort(n.host, t, dh, dp);
  }

  /** Setting an address from its own rendering stores it unchanged, without error. */
  lemma SetShowRoundTrip(current: NetAddress, n: NetAddress)
    requires ValidHost(n.host) && 0 <= n.port <= MaxPort
    ensures Set(current, Show(n)) == Stored(n, false)
  {
    ShowRoundTrip(n, current.host, current.port);
  }

  /** Set keeps what checkNetAddress returned even on an error: a rejected host
      is stored together with the old port. */
  lemma SetStoresRejectedHost(current: NetAddress, x: string, t: string)
    requires !ValidHost(x) && ColonFree(x) && ColonFree(t) && (|t| == 0 || t[0] != '/')
    ensures Set(current, x + ":" + t) == Stored(NetAddress(x, current.port), true)
  {
    RejectedHost(x, t, current.host, current.port);
  }

  /** A dotted quad of octets is an IPv4 address. */
  lemma DottedQuad(a: string, b: string, c: string, d: string)
    requires IsOctet(a) && IsOctet(b) && IsOctet(c) && IsOctet(d)
    ensures IsIPv4(a + "." + b + "." + c + "." + d)
  {
    var s3 := c + "." + d;
    var s2 := b + "." + s3;
    var s1 := a + "." + s2;
    assert s1 == a + "." + b + "." + c + "." + d;
    SplitQuad(a, b, c, d);
  }

  /** Every IPv4 address is such a dotted quad. */
  lemma IPv4IsDottedQuad(s: string)
    requires IsIPv4(s)
    ensures exists a, b, c, d ::
              && IsOctet(a) && IsOctet(b) && IsOctet(c) && IsOctet(d)
              && s == a + "." + b + "." + c + "." + d
  {
    var f := Text.Split(s, ".");
    Text.JoinSplit(s, ".");
    assert f == [f[0], f[1], f[2], f[3]];
    assert f[1..] == [f[1], f[2], f[3]];
    assert f[2..] == [f[2], f[3]];
    assert f[3..] == [f[3]];
    assert IsOctet(f[0]) && IsOctet(f[1]) && IsOctet(f[2]) && IsOctet(f[3]);
    assert Text.Join(f[3..], ".") == f[3];
    assert Text.Join(f[2..], ".") == f[2] + "." + f[3];
    assert Text.Join(f[1..], ".") == f[1] + "." + (f[2] + "." + f[3]);
    assert s == f[0] + "." + (f[1] + "." + (f[2] + "." + f[3]));
    assert s == f[0] + "." + f[1] + "." + f[2] + "." + f[3];
  }

  lemma SplitQuad(a: string, b: string, c: string, d: string)
    requires AllDigits(a) && AllDigits(b) && AllDigits(c) && AllDigits(d)
    ensures Text.Split(a + "." + (b + "." + (c + "." + d)), ".") == [a, b, c, d]
  {
    BareSplitsDot(d);
    DigitsCons(c, d);
    DigitsCons(b, c + "." + d);
    DigitsCons(a, b + "." + (c + "." + d));
  }

  lemma DigitsCons(a: string, rest: string)
    requires AllDigits(a)
    ensures Text.Split(a + "." + rest, ".") == [a] + Text.Split(rest, ".")
  {
    var s := a + "." + rest;
    forall k | 0 <= k < |a| ensures !Text.OccursAt(s, ".", k) {
      assert s[k..k + 1] == [a[k]];
    }
    Text.SplitCons(a, ".", rest);
  }

  lemma BareSplitsDot(a: string)
    requires AllDigits(a)
    ensures Text.Split(a, ".") == [a]
  {
    forall k | 0 <= k < |a| ensures !Text.OccursAt(a, ".", k) {
      assert a[k..k + 1] == [a[k]];
    }
    Text.ContainsMeansOccurs(a, ".");
    Text.SplitNone(a, ".");
  }

  /** The decimal spelling of any byte value is an octet. */
  lemma OctetOf(n: nat)
    requires n <= 255
    ensures IsOctet(NatDigits(n))
  {
    ScanNatDigits(n);
    if n >= 10 {
      assert |NatDigits(n / 10)| <= 2 by {
        if n / 10 >= 10 {
          assert n / 10 / 10 < 10;
        }
      }
    }
  }

  /** Four byte values written in dotted-decimal form make an accepted host. */
  lemma DottedDecimalAccepted(a: nat, b: nat, c: nat, d: nat)
    requires a <= 255 && b <= 255 && c <= 255 && d <= 255
    ensures ValidHost(NatDigits(a) + "." + NatDigits(b) + "." + NatDigits(c) + "." + NatDigits(d))
  {
    OctetOf(a);
    OctetOf(b);
    OctetOf(c);
    OctetOf(d);
    DottedQuad(NatDigits(a), NatDigits(b), NatDigits(c), NatDigits(d));
  }
}

=== FILE: depository.dfy ===
/** The persistent state behind `Storage`, as maps instead of SQL tables,
    and the (id, error) convention its lookups follow. */
module Depository {
  import opened Common

  /** One row of `orders` joined with its `users_orders` link. Money is in hundredths. */
  datatype OrderRow = OrderRow(status: string, accrual: int, owner: int)

  /** One row of `users_balance`. */
  datatype Account = Account(balance: int, withdrawn: int)

  /** One row of `users`; the stored credential stands for the password hash. */
  datatype UserRow = UserRow(id: int, password: string)

  /** One row of `users_transactions` written by a withdrawal. */
  datatype WithdrawalRow = WithdrawalRow(user: int, order: int, sum: int, balanceAfter: int)

  /** The whole database: orders by number, users by login, balances by user id,
      the withdrawal journal, and the next value of the `users.id` sequence. */
  datatype Store = Store(
    orders: map<int, OrderRow>,
    users: map<string, UserRow>,
    accounts: map<int, Account>,
    withdrawals: seq<WithdrawalRow>,
    nextUserId: int)

  /** The errors a single-row lookup distinguishes: `sql.ErrNoRows` or anything else. */
  datatype LookupError = ErrNoRows | ErrDatabase

  /** Go's `(id int, err error)` pair: on an error the id is a sentinel. */
  datatype IdResult = IdResult(id: int, err: Option<LookupError>)

  const EmptyStore := Store(map[], map[], map[], [], 1)
}

=== FILE: handlers.dfy ===
/** The HTTP handlers of the loyalty service: what each request does to the
    store and which status line it answers with. */
module Handlers {
  import opened Common
  import opened Depository
  import opened Numbers
  import Text
  import Luhn
  import Orders
  import Users

  const StatusOK := 200
  const StatusAccepted := 202
  const StatusNoContent := 204
  const StatusBadRequest := 400
  const StatusUnauthorized := 401
  const StatusPaymentRequired := 402
  const StatusConflict := 409
  const StatusUnprocessableEntity := 422
  const StatusInternalServerError := 500

  /** The status line a handler sent and the store it leaves behind. */
  datatype Response = Response(code: int, store: Store)

  /** A read-only answer: the status line and, on 200, the body's records. */
  datatype Answer<T> = Answer(code: int, body: Option<T>)

  /** Only the first WriteHeader of a request reaches the client. */
  function FirstWritten(earlier: Option<int>, code: int): int {
    match earlier
    case Some(c) => c
    case None => code
  }

  /** The outcome of reading the request body. */
  datatype BodyRead = ReadFailed | Body(bytes: string)

  /** The errors parse can return; errors.Join of several is their set. */
  datatype ParseError = ErrRead | ErrBodyIsEmpty | ErrJson | ErrLoginIsEmpty | ErrPasswordIsEmpty

  /** The login record of the register request. */
  datatype Credentials = Credentials(login: string, password: string)

  /** What json.Unmarshal makes of the body. It decodes into the address of the
      receiver pointer, so a `null` body sets the receiver to nil without
      reporting an error. */
  datatype CredentialsJson = Malformed | JsonNull | Record(credentials: Credentials)

  /** The outcome of parse; `NilReceiver` is the nil dereference that follows a
      `null` body when the login field is read. */
  datatype ParseOutcome = Parsed(credentials: Credentials) | Failed(errors: set<ParseError>) | NilReceiver

  /** A handler either answers, or panics before anything reaches the client
      (the server then drops the connection). */
  datatype Handled = Answered(response: Response) | Panicked(store: Store)

  /** getBodyJs: the body, unless it cannot be read or is empty. */
  function GetBody(body: BodyRead): (r: Result<string, ParseError>)
    ensures r.Ok? <==> body.Body? && |body.bytes| > 0
    ensures r.Ok? ==> r.value == body.bytes
    ensures r.Err? ==> r.error == (if body.ReadFailed? then ErrRead else ErrBodyIsEmpty)
  {
    match body
    case ReadFailed => Err(ErrRead)
    case Body(b) => if |b| == 0 then Err(ErrBodyIsEmpty) else Ok(b)
  }

  /** userLoginJSON.parse. `decoded` is what json.Unmarshal makes of the body.
      An empty login and an empty password are both reported when both occur. */
  function ParseCredentials(body: BodyRead, decoded: CredentialsJson): (r: ParseOutcome)
    ensures r.NilReceiver? <==> GetBody(body).Ok? && decoded.JsonNull?
    ensures r.Parsed? <==> GetBody(body).Ok? && decoded.Record? && decoded.credentials.login != "" && decoded.credentials.password != ""
    ensures r.Parsed? ==> r.credentials == decoded.credentials
    ensures r.Failed? ==> r.errors != {}
    ensures r.Failed? && GetBody(body).Err? ==> r.errors == {GetBody(body).error}
    ensures r.Failed? && GetBody(body).Ok? && decoded.Malformed? ==> r.errors == {ErrJson}
    ensures GetBody(body).Ok? && decoded.Record? ==>
              ((r.Failed? && ErrLoginIsEmpty in r.errors) <==> decoded.credentials.login == "")
              && ((r.Failed? && ErrPasswordIsEmpty in r.errors) <==> decoded.credentials.password == "")
  {
    match GetBody(body)
    case Err(e) => Failed({e})
    case Ok(_) =>
      match decoded
      case Malformed => Failed({ErrJson})
      case JsonNull => NilReceiver
      case Record(c) =>
        var errs := (if c.login == "" then {ErrLoginIsEmpty} else {}) + (if c.password == "" then {ErrPasswordIsEmpty} else {});
        if errs == {} then Parsed(c) else Failed(errs)
  }

  /** The parse errors the register handler answers with 400 rather than 500. */
  predicate IsBadInput(errs: set<ParseError>) {
    ErrLoginIsEmpty in errs || ErrPasswordIsEmpty in errs || ErrBodyIsEmpty in errs
  }

  /** UserRegisterHandler. A Content-Type without "application/json" writes 400
      but the request is still processed, so the user may be registered all the
      same; the client then only sees the 400. A `null` body panics inside
      parse, before the store is touched and before any status line is sent. */
  function Register(st: Store, contentType: string, body: BodyRead, decoded: CredentialsJson,
                    existQueryFails: bool, f: Users.RegisterFaults): (r: Handled)
    ensures r.Panicked? <==> ParseCredentials(body, decoded).NilReceiver?
    ensures r.Panicked? ==> r.store == st
    ensures r.Answered? ==> r.response.code in {StatusOK, StatusBadRequest, StatusConflict, StatusInternalServerError}
    ensures r.Answered? ==>
              (r.response.store == st
               || (ParseCredentials(body, decoded).Parsed? &&
                   r.response.store == Users.Enrolled(st, decoded.credentials.login, decoded.credentials.password)))
  {
    var early := if !Text.Contains(contentType, "application/json") then Some(StatusBadRequest) else None;
    match ParseCredentials(body, decoded)
    case NilReceiver => Panicked(st)
    case Failed(errs) =>
      Answered(Response(FirstWritten(early, if IsBadInput(errs) then StatusBadRequest else StatusInternalServerError), st))
    case Parsed(c) =>
      if Users.UserCheckExistLogin(st, c.login, existQueryFails) then Answered(Response(FirstWritten(early, StatusConflict), st))
      else
        var reg := Users.UserRegister(st, c.login, c.password, f);
        Answered(Response(FirstWritten(early, if reg.failed then StatusInternalServerError else StatusOK), reg.store))
  }

  /** A readable `null` body crashes the handler whatever the Content-Type: the
      client gets no status line, not even an early 400, and nothing is stored. */
  lemma RegisterNullPanics(st: Store, contentType: string, bytes: string, existQueryFails: bool, f: Users.RegisterFaults)
    requires |bytes| > 0
    ensures Register(st, contentType, Body(bytes), JsonNull, existQueryFails, f) == Panicked(st)
  {
  }

  /** The register outcomes: 200 exactly when a JSON request with a fresh login
      and a non-empty password is stored; 409 for a taken login; a missing body,
      login or password is 400, an unreadable or malformed body 500. */
  lemma RegisterOutcomes(st: Store, contentType: string, body: BodyRead, login: string, password: string,
                         f: Users.RegisterFaults)
    requires Text.Contains(contentType, "application/json")
    ensures var r := Register(st, contentType, body, Record(Credentials(login, password)), false, f).response;
      && (r.code == StatusOK <==> GetBody(body).Ok? && login != "" && password != "" && login !in st.users
                                  && !Users.UserRegister(st, login, password, f).failed)
      && (r.code == StatusOK ==> r.store == Users.Enrolled(st, login, password))
      && (r.code != StatusOK ==> r.store == st)
      && (r.code == StatusConflict <==> GetBody(body).Ok? && login != "" && password != "" && login in st.users)
      && (r.code == StatusBadRequest <==> GetBody(body) == Err(ErrBodyIsEmpty) || (GetBody(body).Ok? && (login == "" || password == "")))
  {
  }

  /** A malformed body is a server error, not a client error. */
  lemma RegisterMalformedBody(st: Store, contentType: string, bytes: string, f: Users.RegisterFaults)
    requires Text.Contains(contentType, "application/json") && |bytes| > 0
    ensures Register(st, contentType, Body(bytes), Malformed, false, f) == Answered(Response(StatusInternalServerError, st))
  {
  }

  /** With the wrong Content-Type the client sees 400, yet a valid request
      still registers the user. */
  lemma RegisterWrongContentTypeStillStores(st: Store, contentType: string, bytes: string, login: string, password: string)
    requires !Text.Contains(contentType, "application/json")
    requires |bytes| > 0 && login != "" && password != ""
    requires login !in st.users && st.nextUserId !in st.accounts
    ensures Register(st, contentType, Body(bytes), Record(Credentials(login, password)), false, Users.NoRegisterFaults)
            == Answered(Response(StatusBadRequest, Users.Enrolled(st, login, password)))
  {
  }

  /** Registering the same login twice: the second request is a conflict and changes nothing. */
  lemma RegisterTwiceConflicts(st: Store, contentType: string, bytes: string, login: string, password: string, password2: string)
    requires Text.Contains(contentType, "application/json")
    requires |bytes| > 0 && login != "" && password != "" && password2 != ""
    requires Register(st, contentType, Body(bytes), Record(Credentials(login, password)), false, Users.NoRegisterFaults).response.code == StatusOK
    ensures var s1 := Register(st, contentType, Body(bytes), Record(Credentials(login, password)), false, Users.NoRegisterFaults).response.store;
      Register(s1, contentType, Body(bytes), Record(Credentials(login, password2)), false, Users.NoRegisterFaults)
      == Answered(Response(StatusConflict, s1))
  {
  }

  /** The user id the authentication middleware put into the request context. */
  predicate Authorized(userId: Option<int>) {
    userId.Some? && userId.value > 0
  }

  /** UserLoadOrdersHandler. */
  function LoadOrder(st: Store, userId: Option<int>, contentType: string, body: BodyRead,
                     lookupFails: bool, insertFails: bool): (r: Response)
    ensures !Authorized(userId) ==> r == Response(StatusUnauthorized, st)
    ensures r.code == StatusAccepted || r.store == st
  {
    if !Authorized(userId) then Response(StatusUnauthorized, st)
    else if !Text.Contains(contentType, "text/plain") then Response(StatusBadRequest, st)
    else
      match body
      case ReadFailed => Response(StatusInternalServerError, st)
      case Body(b) =>
        var parsed := Atoi(b);
        if |b| == 0 || !parsed.Num? || !Luhn.Valid(parsed.value) then Response(StatusUnprocessableEntity, st)
        else
          var order := parsed.value;
          var owner := Orders.OrderUserCheck(st, order, lookupFails);
          if owner.err == Some(ErrDatabase) then Response(StatusInternalServerError, st)
          else if owner.id > 0 then Response(if owner.id == userId.value then StatusOK else StatusConflict, st)
          else
            match Orders.OrderNew(st, userId.value, order, insertFails)
            case Some(st') => Response(StatusAccepted, st')
            case None => Response(StatusInternalServerError, st)
  }

  /** Every order owner is a positive user id, as ids come from a sequence starting at 1. */
  predicate OwnersPositive(st: Store) {
    forall o :: o in st.orders ==> st.orders[o].owner > 0
  }

  /** The load outcomes for an authorized plain-text request whose body reads:
      422 unless the body is a Luhn-valid number; then 200 if the caller already
      loaded it, 409 if someone else did, and 202 with the order stored as NEW
      when it is new and the insert succeeds. */
  lemma LoadOrderOutcomes(st: Store, user: int, contentType: string, bytes: string, insertFails: bool)
    requires user > 0 && Text.Contains(contentType, "text/plain") && OwnersPositive(st)
    ensures var r := LoadOrder(st, Some(user), contentType, Body(bytes), false, insertFails);
      && (r.code == StatusUnprocessableEntity <==> !(Atoi(bytes).Num? && Luhn.Valid(Atoi(bytes).value)))
      && (Atoi(bytes).Num? && Luhn.Valid(Atoi(bytes).value) ==>
            var o := Atoi(bytes).value;
            && (o in st.orders && st.orders[o].owner == user ==> r == Response(StatusOK, st))
            && (o in st.orders && st.orders[o].owner != user ==> r == Response(StatusConflict, st))
            && (o !in st.orders && !insertFails ==>
                  r.code == StatusAccepted && r.store.orders == st.orders[o := OrderRow(Orders.Name(Orders.New), 0, user)])
            && (o !in st.orders && insertFails ==> r == Response(StatusInternalServerError, st)))
  {
  }

  /** A negative multiple of 10, written as Itoa prints it, passes the Luhn
      check and is stored as a new order. */
  lemma LoadOrderAcceptsNegative(st: Store, user: int, contentType: string, k: nat)
    requires user > 0 && Text.Contains(contentType, "text/plain")
    requires 0 < k && MinInt64 <= -10 * k && -10 * k !in st.orders
    ensures LoadOrder(st, Some(user), contentType, Body(Itoa(-10 * k)), false, false)
         == Response(StatusAccepted, st.(orders := st.orders[-10 * k := OrderRow(Orders.Name(Orders.New), 0, user)]))
  {
    AtoiItoa(-10 * k);
    Luhn.NegativeMultiplesOfTen(k);
    LoadOrderAcceptsNew(st, user, contentType, Itoa(-10 * k));
  }

  /** Loading an order a second time: the same user gets 200, another user 409,
      and neither changes the store. */
  lemma LoadOrderTwice(st: Store, user: int, other: int, contentType: string, bytes: string)
    requires user > 0 && other > 0 && other != user && Text.Contains(contentType, "text/plain")
    requires LoadOrder(st, Some(user), contentType, Body(bytes), false, false).code == StatusAccepted
    ensures var s1 := LoadOrder(st, Some(user), contentType, Body(bytes), false, false).store;
      && LoadOrder(s1, Some(user), contentType, Body(bytes), false, false) == Response(StatusOK, s1)
      && LoadOrder(s1, Some(other), contentType, Body(bytes), false, false) == Response(StatusConflict, s1)
  {
  }

  /** A new Luhn-valid order is stored as NEW for the caller, and nothing else changes. */
  lemma LoadOrderAcceptsNew(st: Store, user: int, contentType: string, bytes: string)
    requires user > 0 && Text.Contains(contentType, "text/plain")
    requires Atoi(bytes).Num? && Luhn.Valid(Atoi(bytes).value) && Atoi(bytes).value !in st.orders
    ensures LoadOrder(st, Some(user), contentType, Body(bytes), false, false)
         == Response(StatusAccepted, st.(orders := st.orders[Atoi(bytes).value := OrderRow(Orders.Name(Orders.New), 0, user)]))
  {
  }

  /** A body that is not a Luhn-valid number is refused with 422 and changes nothing. */
  lemma LoadOrderRejectsBadNumber(st: Store, user: int, contentType: string, bytes: string, lookupFails: bool, insertFails: bool)
    requires user > 0 && Text.Contains(contentType, "text/plain")
    requires !(Atoi(bytes).Num? && Luhn.Valid(Atoi(bytes).value))
    ensures LoadOrder(st, Some(user), contentType, Body(bytes), lookupFails, insertFails) == Response(StatusUnprocessableEntity, st)
  {
  }

  /** The order texts of the handler tests: "12345678903" is accepted and
      "12345678910" refused with 422. */
  lemma LoadOrderVectors(st: Store, user: int, contentType: string, good: string, bad: string)
    requires user > 0 && 12345678903 !in st.orders && contentType == "text/plain"
    requires good == "12345678903" && bad == "12345678910"
    ensures LoadOrder(st, Some(user), contentType, Body(good), false, false).code == StatusAccepted
    ensures LoadOrder(st, Some(user), contentType, Body(bad), false, false) == Response(StatusUnprocessableEntity, st)
  {
    assert Atoi(good) == Num(12345678903) && Luhn.Valid(12345678903) by {
      Luhn.TestVectors();
      TestOrderTexts();
    }
    assert Atoi(bad) == Num(12345678910) && !Luhn.Valid(12345678910) by {
      Luhn.TestVectors();
      TestOrderTexts();
    }
    assert Text.Contains(contentType, "text/plain") by {
      Text.ContainsMeansOccurs("text/plain", "text/plain");
    }
    LoadOrderAcceptsNew(st, user, contentType, good);
    LoadOrderRejectsBadNumber(st, user, contentType, bad, false, false);
  }

  /** strconv.Atoi on the order texts of the handler tests. */
  lemma TestOrderTexts()
    ensures Atoi("12345678903") == Num(12345678903)
    ensures Atoi("12345678910") == Num(12345678910)
    ensures Atoi("12345678900") == Num(12345678900)
    ensures Atoi("a12345678900") == SyntaxError
  {
    assert NatDigits(1) == "1";
    assert NatDigits(12) == "12";
    assert NatDigits(123) == "123";
    assert NatDigits(1234) == "1234";
    assert NatDigits(12345) == "12345";
    assert NatDigits(123456) == "123456";
    assert NatDigits(1234567) == "1234567";
    assert NatDigits(12345678) == "12345678";
    assert NatDigits(123456789) == "123456789";
    assert NatDigits(1234567890) == "1234567890";
    assert NatDigits(1234567891) == "1234567891";
    assert NatDigits(12345678903) == "12345678903";
    assert NatDigits(12345678910) == "12345678910";
    assert NatDigits(12345678900) == "12345678900";
    AtoiItoa(12345678903);
    AtoiItoa(12345678910);
    AtoiItoa(12345678900);
  }

  /** The withdraw request record. */
  datatype WithdrawRequest = WithdrawRequest(order: string, sum: int)

  /** UserGetBalanceWithdrawHandler. An unreadable or empty body writes 500 and
      then fails to decode, so it answers 500; a malformed record is 500 too; an
      order that is not a Luhn-valid number is 422; an insufficient balance is
      402, any other storage error 500. */
  function Withdraw(st: Store, userId: Option<int>, body: BodyRead, decoded: Option<WithdrawRequest>,
                    f: Users.WithdrawFaults): (r: Response)
    ensures !Authorized(userId) ==> r == Response(StatusUnauthorized, st)
    ensures r.code != StatusOK ==> r.store == st
  {
    if !Authorized(userId) then Response(StatusUnauthorized, st)
    else if GetBody(body).Err? then Response(StatusInternalServerError, st)
    else if decoded.None? then Response(StatusInternalServerError, st)
    else
      var w := decoded.value;
      var parsed := Atoi(w.order);
      if !parsed.Num? || !Luhn.Valid(parsed.value) then Response(StatusUnprocessableEntity, st)
      else
        match Users.UserWithdrawal(st, userId.value, parsed.value, w.sum, f)
        case Err(ErrInsufficientBalance) => Response(StatusPaymentRequired, st)
        case Err(_) => Response(StatusInternalServerError, st)
        case Ok(st') => Response(StatusOK, st')
  }

  /** The withdraw outcomes for an authorized, decodable request naming a
      Luhn-valid order: 402 exactly when the balance is below the sum, and on
      200 the sum has moved from balance to withdrawn and is journalled. */
  lemma WithdrawOutcomes(st: Store, user: int, bytes: string, w: WithdrawRequest, f: Users.WithdrawFaults)
    requires user > 0 && |bytes| > 0 && user in st.accounts && !f.readFails
    requires Atoi(w.order).Num? && Luhn.Valid(Atoi(w.order).value)
    ensures var r := Withdraw(st, Some(user), Body(bytes), Some(w), f);
      && (r.code == StatusPaymentRequired <==> st.accounts[user].balance < w.sum)
      && (r.code == StatusOK && !f.updateFails ==>
            && r.store.accounts[user].balance == st.accounts[user].balance - w.sum
            && r.store.accounts[user].withdrawn == st.accounts[user].withdrawn + w.sum
            && r.store.withdrawals == st.withdrawals + [WithdrawalRow(user, Atoi(w.order).value, w.sum, r.store.accounts[user].balance)])
  {
  }

  /** An order text that is not a Luhn-valid number is refused with 422 and changes nothing. */
  lemma WithdrawRejectsBadNumber(st: Store, user: int, bytes: string, w: WithdrawRequest, f: Users.WithdrawFaults)
    requires user > 0 && |bytes| > 0
    requires !(Atoi(w.order).Num? && Luhn.Valid(Atoi(w.order).value))
    ensures Withdraw(st, Some(user), Body(bytes), Some(w), f) == Response(StatusUnprocessableEntity, st)
  {
  }

  /** The withdraw cases of the handler tests: 100.00 against an empty balance
      is 402; the order texts "12345678900" and "a12345678900" are 422. */
  lemma WithdrawVectors(st: Store, user: int, bytes: string, good: string, bad: string, mangled: string)
    requires user > 0 && |bytes| > 0 && user in st.accounts && st.accounts[user].balance == 0
    requires good == "12345678903" && bad == "12345678900" && mangled == "a12345678900"
    ensures Withdraw(st, Some(user), Body(bytes), Some(WithdrawRequest(good, 10000)), Users.NoWithdrawFaults)
            == Response(StatusPaymentRequired, st)
    ensures Withdraw(st, Some(user), Body(bytes), Some(WithdrawRequest(bad, 10000)), Users.NoWithdrawFaults)
            == Response(StatusUnprocessableEntity, st)
    ensures Withdraw(st, Some(user), Body(bytes), Some(WithdrawRequest(mangled, 10000)), Users.NoWithdrawFaults)
            == Response(StatusUnprocessableEntity, st)
  {
    assert Atoi(good) == Num(12345678903) && Luhn.Valid(12345678903) by {
      Luhn.TestVectors();
      TestOrderTexts();
    }
    assert Atoi(bad) == Num(12345678900) && !Luhn.Valid(12345678900) by {
      Luhn.TestVectors();
      TestOrderTexts();
    }
    assert Atoi(mangled) == SyntaxError by {
      TestOrderTexts();
    }
    WithdrawOutcomes(st, user, bytes, WithdrawRequest(good, 10000), Users.NoWithdrawFaults);
    WithdrawRejectsBadNumber(st, user, bytes, WithdrawRequest(bad, 10000), Users.NoWithdrawFaults);
    WithdrawRejectsBadNumber(st, user, bytes, WithdrawRequest(mangled, 10000), Users.NoWithdrawFaults);
  }

  /** UserGetOrdersHandler: 204 when the user has no orders, otherwise 200 with them. */
  function GetOrders(st: Store, userId: Option<int>, queryFails: bool, marshalFails: bool): (r: Answer<set<int>>)
    ensures r.body.Some? <==> r.code == StatusOK
    ensures r.code == StatusOK ==> Authorized(userId) && r.body.value == Orders.UserOrders(st, userId.value)
    ensures Authorized(userId) && !queryFails && !marshalFails ==>
              (r.code == StatusNoContent <==> Orders.UserOrders(st, userId.value) == {})
  {
    if !Authorized(userId) then Answer(StatusUnauthorized, None)
    else if queryFails then Answer(StatusInternalServerError, None)
    else
      var os := Orders.UserOrders(st, userId.value);
      if os == {} then Answer(StatusNoContent, None)
      else if marshalFails then Answer(StatusInternalServerError, None)
      else Answer(StatusOK, Some(os))
  }

  /** An order accepted by the load handler is listed for its owner afterwards. */
  lemma LoadThenList(st: Store, user: int, contentType: string, bytes: string)
    requires user > 0
    requires LoadOrder(st, Some(user), contentType, Body(bytes), false, false).code == StatusAccepted
    ensures var s1 := LoadOrder(st, Some(user), contentType, Body(bytes), false, false).store;
      var a := GetOrders(s1, Some(user), false, false);
      a.code == StatusOK && Atoi(bytes).Num? && Atoi(bytes).value in a.body.value
  {
    var s1 := LoadOrder(st, Some(user), contentType, Body(bytes), false, false).store;
    var n := Atoi(bytes).value;
    assert n in s1.orders && s1.orders[n].owner == user;
    assert n in Orders.UserOrders(s1, user);
  }

  /** UserGetWithdrawalsHandler: 204 when the user has none, otherwise 200 with
      them, newest first. */
  function GetWithdrawals(st: Store, userId: Option<int>, queryFails: bool, marshalFails: bool): (r: Answer<seq<WithdrawalRow>>)
    ensures r.body.Some? <==> r.code == StatusOK
    ensures r.code == StatusOK ==> Authorized(userId) && r.body.value == Users.WithdrawalsOf(st.withdrawals, userId.value)
    ensures Authorized(userId) && !queryFails && !marshalFails ==>
              (r.code == StatusNoContent <==> forall i :: 0 <= i < |st.withdrawals| ==> st.withdrawals[i].user != userId.value)
  {
    if !Authorized(userId) then Answer(StatusUnauthorized, None)
    else
      match Users.UserGetWithdrawals(st, userId.value, queryFails)
      case Err(_) => Answer(StatusInternalServerError, None)
      case Ok(ws) =>
        if |ws| == 0 then Answer(StatusNoContent, None)
        else if marshalFails then Answer(StatusInternalServerError, None)
        else Answer(StatusOK, Some(ws))
  }

  /** A committed withdrawal heads its user's list of withdrawals. */
  lemma WithdrawThenList(st: Store, user: int, bytes: string, w: WithdrawRequest)
    requires user > 0
    requires Withdraw(st, Some(user), Body(bytes), Some(w), Users.NoWithdrawFaults).code == StatusOK
    ensures var s1 := Withdraw(st, Some(user), Body(bytes), Some(w), Users.NoWithdrawFaults).store;
      var a := GetWithdrawals(s1, Some(user), false, false);
      && a.code == StatusOK
      && a.body.value[0] == s1.withdrawals[|s1.withdrawals| - 1]
      && a.body.value[1..] == Users.WithdrawalsOf(st.withdrawals, user)
  {
    var s1 := Withdraw(st, Some(user), Body(bytes), Some(w), Users.NoWithdrawFaults).store;
    var row := s1.withdrawals[|s1.withdrawals| - 1];
    assert s1.withdrawals == st.withdrawals + [row];
    Users.WithdrawalsOfAppend(st.withdrawals, row, user);
  }
}

=== FILE: loader.dfy ===
/** The accrual loader: classification of the accrual service's replies,
    the fan-out that requests each listed order, and the batch that applies
    the verdicts to the order and balance store in one transaction. */
module Loader {
  import opened Common
  import opened Depository
  import Orders
  import Users

  const StatusOK := 200
  const StatusNoContent := 204
  const StatusTooManyRequests := 429
  const StatusInternalServerError := 500

  /** What json.Unmarshal left in the reply record, and whether it reported an
      error. A syntax error leaves the record zero-valued (`Undecodable`); a type
      mismatch may still have filled the other fields. */
  datatype Decoded = Decoded(status: string, accrual: int, failed: bool)

  const Undecodable := Decoded("", 0, true)

  /** One answer to `GET {server}/api/orders/{order}`. */
  datatype Reply = TransportError | Http(code: int, body: Decoded)

  /** The record a worker sends on: order, status text (empty for "no verdict"), accrual. */
  datatype Verdict = Verdict(order: int, status: string, accrual: int)

  /** getOrderStatusFromServerAPI for one order: at most one record.
      204 means the service does not know the order, so it is INVALID; 429 and
      500 give a record with no status; 200 passes on whatever was decoded, even
      when decoding failed; a transport error or any other code gives nothing. */
  function Classify(order: int, reply: Reply): (r: Option<Verdict>)
    ensures r.Some? ==> r.value.order == order
    ensures reply.TransportError? ==> r.None?
    ensures reply.Http? && reply.code == StatusNoContent ==> r == Some(Verdict(order, Orders.Name(Orders.Invalid), 0))
    ensures reply.Http? && (reply.code == StatusTooManyRequests || reply.code == StatusInternalServerError)
            ==> r == Some(Verdict(order, "", 0))
    ensures reply.Http? && reply.code == StatusOK ==> r == Some(Verdict(order, reply.body.status, reply.body.accrual))
    ensures reply.Http? && reply.code !in {StatusOK, StatusNoContent, StatusTooManyRequests, StatusInternalServerError}
            ==> r.None?
  {
    match reply
    case TransportError => None
    case Http(code, body) =>
      if code == StatusNoContent then Some(Verdict(order, Orders.Name(Orders.Invalid), 0))
      else if code == StatusTooManyRequests || code == StatusInternalServerError then Some(Verdict(order, "", 0))
      else if code == StatusOK then Some(Verdict(order, body.status, body.accrual))
      else None
  }

  /** A 200 reply whose body does not parse still sends a record, but an empty one. */
  lemma UndecodableGivesEmptyVerdict(order: int)
    ensures Classify(order, Http(StatusOK, Undecodable)) == Some(Verdict(order, "", 0))
  {
  }

  /** The orders the workers of fanOut request, in the order the generator hands
      them out. Each of the `nWorkers` workers takes one item; once the generator
      has closed its channel a worker receives the zero value, order 0. */
  function Requests(nWorkers: nat, orders: seq<int>): (r: seq<int>)
    ensures |r| == nWorkers
    decreases nWorkers
  {
    if nWorkers == 0 then []
    else if |orders| == 0 then [0] + Requests(nWorkers - 1, [])
    else [orders[0]] + Requests(nWorkers - 1, orders[1..])
  }

  /** UpdateOrdersStatuses starts one worker per listed order, so the
      requests are the listed orders themselves, in list order, and an empty
      list issues no request at all. */
  lemma {:induction false} RequestsEveryOrder(orders: seq<int>)
    ensures Requests(|orders|, orders) == orders
  {
    if |orders| > 0 {
      RequestsEveryOrder(orders[1..]);
      assert orders == [orders[0]] + orders[1..];
    }
  }

  /** Every listed order is requested exactly once, and nothing else is requested. */
  lemma RequestedOnce(orders: seq<int>)
    requires Orders.Distinct(orders)
    ensures forall o :: o in orders ==> multiset(Requests(|orders|, orders))[o] == 1
    ensures forall o :: o !in orders ==> multiset(Requests(|orders|, orders))[o] == 0
  {
    RequestsEveryOrder(orders);
    forall o ensures multiset(orders)[o] == (if o in orders then 1 else 0) {
      DistinctCount(orders, o);
    }
  }

  lemma {:induction false} DistinctCount(xs: seq<int>, x: int)
    requires Orders.Distinct(xs)
    ensures multiset(xs)[x] == if x in xs then 1 else 0
  {
    if |xs| > 0 {
      assert xs == [xs[0]] + xs[1..];
      assert Orders.Distinct(xs[1..]) by {
        forall i, j | 0 <= i < j < |xs[1..]| ensures xs[1..][i] != xs[1..][j] {
          assert xs[1..][i] == xs[i + 1] && xs[1..][j] == xs[j + 1];
        }
      }
      DistinctCount(xs[1..], x);
      assert xs[0] !in xs[1..] by {
        forall k | 0 <= k < |xs[1..]| ensures xs[1..][k] != xs[0] {
          assert xs[1..][k] == xs[k + 1];
        }
      }
      assert multiset(xs) == multiset{xs[0]} + multiset(xs[1..]);
    }
  }

  /** More workers than orders: the extra workers request order 0. */
  lemma ExtraWorkersRequestZero(n: nat, orders: seq<int>)
    requires n > |orders|
    ensures Requests(n, orders)[|orders|] == 0
  {
    if |orders| > 0 {
      ExtraWorkersRequestZero(n - 1, orders[1..]);
    }
  }

  /** The records the workers send on, in request order (the merge may
      deliver them in any other order). */
  function Collect(requested: seq<int>, replies: seq<Reply>): (vs: seq<Verdict>)
    requires |replies| == |requested|
    ensures |vs| <= |requested|
    ensures forall i :: 0 <= i < |vs| ==> vs[i].order in requested
  {
    if |requested| == 0 then []
    else
      var head := match Classify(requested[0], replies[0]) case Some(v) => [v] case None => [];
      head + Collect(requested[1..], replies[1..])
  }

  /** Every reply that classifies to a record has that record collected: the
      merge forwards whatever any worker sends. */
  lemma {:induction false} CollectComplete(requested: seq<int>, replies: seq<Reply>, i: nat, v: Verdict)
    requires |replies| == |requested| && i < |requested|
    requires Classify(requested[i], replies[i]) == Some(v)
    ensures v in Collect(requested, replies)
  {
    if i > 0 {
      CollectComplete(requested[1..], replies[1..], i - 1, v);
    }
  }

  /** Every collected record is the classification of one request's reply. */
  lemma {:induction false} CollectSource(requested: seq<int>, replies: seq<Reply>, v: Verdict)
    requires |replies| == |requested|
    requires v in Collect(requested, replies)
    ensures exists i :: 0 <= i < |requested| && Classify(requested[i], replies[i]) == Some(v)
  {
    if |requested| > 0 {
      var head := match Classify(requested[0], replies[0]) case Some(v) => [v] case None => [];
      if v !in head {
        CollectSource(requested[1..], replies[1..], v);
        var i :| 0 <= i < |requested| - 1 && Classify(requested[1..][i], replies[1..][i]) == Some(v);
        assert Classify(requested[i + 1], replies[i + 1]) == Some(v);
      }
    }
  }

  /** No two records are about the same order. */
  predicate DistinctOrders(vs: seq<Verdict>) {
    forall i, j :: 0 <= i < j < |vs| ==> vs[i].order != vs[j].order
  }

  /** Distinct requests give records about distinct orders. */
  lemma {:induction false} CollectDistinct(requested: seq<int>, replies: seq<Reply>)
    requires |replies| == |requested| && Orders.Distinct(requested)
    ensures DistinctOrders(Collect(requested, replies))
  {
    if |requested| > 0 {
      var tail := Collect(requested[1..], replies[1..]);
      assert Orders.Distinct(requested[1..]) by {
        forall i, j | 0 <= i < j < |requested[1..]| ensures requested[1..][i] != requested[1..][j] {
          assert requested[1..][i] == requested[i + 1] && requested[1..][j] == requested[j + 1];
        }
      }
      CollectDistinct(requested[1..], replies[1..]);
      match Classify(requested[0], replies[0])
      case None =>
        assert Collect(requested, replies) == tail;
      case Some(v) =>
        assert Collect(requested, replies) == [v] + tail;
        forall j | 0 <= j < |tail| ensures tail[j].order != v.order {
          var k :| 0 <= k < |requested[1..]| && requested[1..][k] == tail[j].order;
          assert requested[1..][k] == requested[k + 1];
        }
        DistinctCons(v, tail);
    }
  }

  lemma DistinctCons(v: Verdict, tail: seq<Verdict>)
    requires DistinctOrders(tail)
    requires forall j :: 0 <= j < |tail| ==> tail[j].order != v.order
    ensures DistinctOrders([v] + tail)
  {
    var all := [v] + tail;
    forall i, j | 0 <= i < j < |all| ensures all[i].order != all[j].order {
      assert all[j] == tail[j - 1];
      if i > 0 {
        assert all[i] == tail[i - 1];
      }
    }
  }



  /** Which of the database operations inside updateOrder fail: opening the
      transaction, the status write of an order, the owner lookup of an order
      (a database error; an unknown order fails the lookup by itself), and the
      balance update of a user. */
  datatype Faults = Faults(beginFails: bool, statusWriteFails: set<int>, lookupFails: set<int>, balanceWriteFails: set<int>)

  const NoFaults := Faults(false, {}, {}, {})

  /** Applying `v` inside the transaction hits an error. The owner is looked up
      outside the transaction, in the committed store `c`. */
  predicate WriteFails(c: Store, v: Verdict, f: Faults) {
    && v.status != ""
    && var owner := Orders.OrderUserCheck(c, v.order, v.order in f.lookupFails);
       v.order in f.statusWriteFails || owner.err.Some? || owner.id in f.balanceWriteFails
  }

  /** The shared transaction: the state it would commit, and whether it has been
      rolled back (after which every statement and the commit fail). */
  datatype Tx = Tx(work: Store, aborted: bool)

  /** One iteration of updateOrder's loop. A record with no status is skipped;
      otherwise the status and accrual are written and the owner's balance is
      raised by the accrual, whatever the status; any error rolls everything back. */
  function Step(c: Store, t: Tx, v: Verdict, f: Faults): Tx {
    if t.aborted || v.status == "" then t
    else if WriteFails(c, v, f) then Tx(c, true)
    else
      var owner := c.orders[v.order].owner;
      Tx(t.work.(orders := Orders.StatusUpdate(t.work.orders, v.order, v.status, v.accrual),
                 accounts := Users.BalanceUpdate(t.work.accounts, owner, v.accrual, 0)), false)
  }

  /** The loop over the merged channel, in arrival order. */
  function Fold(c: Store, t: Tx, vs: seq<Verdict>, f: Faults): Tx
    decreases |vs|
  {
    if |vs| == 0 then t else Fold(c, Step(c, t, vs[0], f), vs[1..], f)
  }

  /** A rolled-back transaction holds nothing but the committed state. */
  predicate Sane(c: Store, t: Tx) {
    t.aborted ==> t == Tx(c, true)
  }

  /** The parts of the store a batch never touches, and the rows it may touch. */
  predicate Framed(c: Store, w: Store) {
    && w.users == c.users && w.withdrawals == c.withdrawals && w.nextUserId == c.nextUserId
    && w.orders.Keys == c.orders.Keys && w.accounts.Keys == c.accounts.Keys
    && (forall o :: o in c.orders ==> w.orders[o].owner == c.orders[o].owner)
    && (forall u :: u in c.accounts ==> w.accounts[u].withdrawn == c.accounts[u].withdrawn)
  }

  lemma {:induction false} FoldFrame(c: Store, t: Tx, vs: seq<Verdict>, f: Faults)
    requires Sane(c, t) && Framed(c, t.work)
    ensures Sane(c, Fold(c, t, vs, f)) && Framed(c, Fold(c, t, vs, f).work)
    decreases |vs|
  {
    if |vs| > 0 {
      FoldFrame(c, Step(c, t, vs[0], f), vs[1..], f);
    }
  }

  /** Once a write has failed, the batch ends rolled back. */
  lemma {:induction false} FoldAborts(c: Store, t: Tx, vs: seq<Verdict>, f: Faults)
    requires Sane(c, t)
    requires t.aborted || exists i :: 0 <= i < |vs| && WriteFails(c, vs[i], f)
    ensures Fold(c, t, vs, f) == Tx(c, true)
    decreases |vs|
  {
    if |vs| > 0 {
      var t' := Step(c, t, vs[0], f);
      if !t'.aborted {
        var i :| 0 <= i < |vs| && WriteFails(c, vs[i], f);
        assert i != 0;
        assert WriteFails(c, vs[1..][i - 1], f);
      }
      FoldAborts(c, t', vs[1..], f);
    }
  }

  /** updateOrder: all verdicts go through one transaction. If it cannot be opened
      nothing is written; a failure anywhere discards the whole batch, since the
      statements after a rollback and the final commit fail too. */
  function UpdateOrder(st: Store, vs: seq<Verdict>, f: Faults): (r: Store)
    ensures f.beginFails ==> r == st
    ensures (exists i :: 0 <= i < |vs| && WriteFails(st, vs[i], f)) ==> r == st
    ensures Framed(st, r)
  {
    if f.beginFails then st
    else
      FoldFrame(st, Tx(st, false), vs, f);
      var t := Fold(st, Tx(st, false), vs, f);
      assert (exists i :: 0 <= i < |vs| && WriteFails(st, vs[i], f)) ==> t.aborted by {
        if exists i :: 0 <= i < |vs| && WriteFails(st, vs[i], f) {
          FoldAborts(st, Tx(st, false), vs, f);
        }
      }
      if t.aborted then st else t.work
  }

  // ---------------------------------------------------------------------------
  // An independent description of a committed batch, order by order and user by user.

  /** The last record with a status about order `o`. */
  function LastVerdict(vs: seq<Verdict>, o: int): (r: Option<Verdict>)
    ensures r.Some? ==> r.value in vs && r.value.order == o && r.value.status != ""
    ensures r.None? ==> forall i :: 0 <= i < |vs| ==> vs[i].order != o || vs[i].status == ""
  {
    if |vs| == 0 then None
    else
      match LastVerdict(vs[1..], o)
      case Some(v) => Some(v)
      case None => if vs[0].order == o && vs[0].status != "" then Some(vs[0]) else None
  }

  /** A row after the verdict `lv` (if any) has been written into it. */
  function Verdicted(row: OrderRow, lv: Option<Verdict>): OrderRow {
    match lv
    case None => row
    case Some(v) => row.(status := v.status, accrual := v.accrual)
  }

  /** What the records with a status credit to user `u`, owners read from `c`. */
  function CreditTo(c: Store, vs: seq<Verdict>, u: int): int {
    if |vs| == 0 then 0
    else
      var v := vs[0];
      (if v.status != "" && v.order in c.orders && c.orders[v.order].owner == u then v.accrual else 0)
      + CreditTo(c, vs[1..], u)
  }

  /** The records about order `o`, and the records about every other order. */
  function About(vs: seq<Verdict>, o: int): seq<Verdict> {
    if |vs| == 0 then [] else (if vs[0].order == o then [vs[0]] else []) + About(vs[1..], o)
  }

  function Without(vs: seq<Verdict>, o: int): seq<Verdict> {
    if |vs| == 0 then [] else (if vs[0].order != o then [vs[0]] else []) + Without(vs[1..], o)
  }

  /** A user's credit is what the records about `o` give plus what the rest give. */
  lemma {:induction false} CreditSplit(c: Store, vs: seq<Verdict>, o: int, u: int)
    ensures CreditTo(c, vs, u) == CreditTo(c, About(vs, o), u) + CreditTo(c, Without(vs, o), u)
  {
    if |vs| > 0 {
      CreditSplit(c, vs[1..], o, u);
      var a := (if vs[0].order == o then [vs[0]] else []) + About(vs[1..], o);
      var w := (if vs[0].order != o then [vs[0]] else []) + Without(vs[1..], o);
      if vs[0].order == o {
        assert a[1..] == About(vs[1..], o);
        assert w == Without(vs[1..], o);
      } else {
        assert w[1..] == Without(vs[1..], o);
        assert a == About(vs[1..], o);
      }
    }
  }

  /** Among records about distinct orders, `v` is the only one about its order. */
  lemma {:induction false} AboutDistinct(vs: seq<Verdict>, v: Verdict)
    requires DistinctOrders(vs) && v in vs
    ensures About(vs, v.order) == [v]
  {
    assert vs[1..] == [] || DistinctOrders(vs[1..]) by {
      forall i, j | 0 <= i < j < |vs[1..]| ensures vs[1..][i].order != vs[1..][j].order {
        assert vs[1..][i] == vs[i + 1] && vs[1..][j] == vs[j + 1];
      }
    }
    if vs[0] == v {
      forall j | 0 <= j < |vs[1..]| ensures vs[1..][j].order != v.order {
        assert vs[1..][j] == vs[j + 1];
      }
      AboutNone(vs[1..], v.order);
    } else {
      var j :| 0 <= j < |vs| && vs[j] == v;
      assert vs[1..][j - 1] == v;
      AboutDistinct(vs[1..], v);
    }
  }

  lemma {:induction false} AboutNone(vs: seq<Verdict>, o: int)
    requires forall j :: 0 <= j < |vs| ==> vs[j].order != o
    ensures About(vs, o) == []
  {
    if |vs| > 0 {
      assert forall j :: 0 <= j < |vs[1..]| ==> vs[1..][j].order != o by {
        forall j | 0 <= j < |vs[1..]| ensures vs[1..][j].order != o {
          assert vs[1..][j] == vs[j + 1];
        }
      }
      AboutNone(vs[1..], o);
    }
  }

  predicate NoWriteFails(c: Store, vs: seq<Verdict>, f: Faults) {
    forall i :: 0 <= i < |vs| ==> !WriteFails(c, vs[i], f)
  }

  lemma {:induction false} FoldReference(c: Store, t: Tx, vs: seq<Verdict>, f: Faults)
    requires !t.aborted && NoWriteFails(c, vs, f)
    requires t.work.orders.Keys == c.orders.Keys
    ensures var r := Fold(c, t, vs, f);
      && !r.aborted
      && r.work.orders.Keys == t.work.orders.Keys && r.work.accounts.Keys == t.work.accounts.Keys
      && (forall o :: o in c.orders ==> r.work.orders[o] == Verdicted(t.work.orders[o], LastVerdict(vs, o)))
      && (forall u :: u in t.work.accounts ==>
            r.work.accounts[u] == Account(t.work.accounts[u].balance + CreditTo(c, vs, u), t.work.accounts[u].withdrawn))
    decreases |vs|
  {
    if |vs| > 0 {
      var v := vs[0];
      var t' := Step(c, t, v, f);
      assert !WriteFails(c, vs[0], f);
      assert NoWriteFails(c, vs[1..], f) by {
        forall i | 0 <= i < |vs[1..]| ensures !WriteFails(c, vs[1..][i], f) {
          assert vs[1..][i] == vs[i + 1];
        }
      }
      FoldReference(c, t', vs[1..], f);
    }
  }

  /** A committed batch writes into each order its last verdict with a status and
      raises each user's balance by the accruals of all verdicts with a status on
      the user's orders; withdrawn amounts and everything else stay as they were. */
  lemma UpdateOrderReference(st: Store, vs: seq<Verdict>, f: Faults)
    requires !f.beginFails && NoWriteFails(st, vs, f)
    ensures var r := UpdateOrder(st, vs, f);
      && (forall o :: o in st.orders ==> r.orders[o] == Verdicted(st.orders[o], LastVerdict(vs, o)))
      && (forall u :: u in st.accounts ==>
            r.accounts[u] == Account(st.accounts[u].balance + CreditTo(st, vs, u), st.accounts[u].withdrawn))
  {
    FoldReference(st, Tx(st, false), vs, f);
  }

  /** Records without a status never change anything, whatever fails. */
  lemma {:induction false} EmptyStatusesChangeNothing(st: Store, vs: seq<Verdict>, f: Faults)
    requires forall i :: 0 <= i < |vs| ==> vs[i].status == ""
    ensures UpdateOrder(st, vs, f) == st
  {
    if !f.beginFails {
      assert NoWriteFails(st, vs, f);
      UpdateOrderReference(st, vs, f);
      var r := UpdateOrder(st, vs, f);
      forall o | o in st.orders ensures r.orders[o] == st.orders[o] {
        assert LastVerdict(vs, o).None?;
      }
      forall u | u in st.accounts ensures r.accounts[u] == st.accounts[u] {
        EmptyCreditsNothing(st, vs, u);
      }
    }
  }

  lemma {:induction false} EmptyCreditsNothing(c: Store, vs: seq<Verdict>, u: int)
    requires forall i :: 0 <= i < |vs| ==> vs[i].status == ""
    ensures CreditTo(c, vs, u) == 0
  {
    if |vs| > 0 {
      EmptyCreditsNothing(c, vs[1..], u);
    }
  }

  // ---------------------------------------------------------------------------
  // Arrival order does not matter.

  lemma StatusUpdatesCommute(m: map<int, OrderRow>, o1: int, s1: string, a1: int, o2: int, s2: string, a2: int)
    requires o1 != o2
    ensures Orders.StatusUpdate(Orders.StatusUpdate(m, o1, s1, a1), o2, s2, a2)
         == Orders.StatusUpdate(Orders.StatusUpdate(m, o2, s2, a2), o1, s1, a1)
  {
    var l := Orders.StatusUpdate(Orders.StatusUpdate(m, o1, s1, a1), o2, s2, a2);
    var r := Orders.StatusUpdate(Orders.StatusUpdate(m, o2, s2, a2), o1, s1, a1);
    assert forall o :: o in l ==> l[o] == r[o];
  }

  /** Records about different orders can be applied in either order. */
  lemma StepsCommute(c: Store, t: Tx, x: Verdict, y: Verdict, f: Faults)
    requires x.order != y.order
    ensures Step(c, Step(c, t, x, f), y, f) == Step(c, Step(c, t, y, f), x, f)
  {
    if !t.aborted && x.status != "" && y.status != "" && !WriteFails(c, x, f) && !WriteFails(c, y, f) {
      var ox := c.orders[x.order].owner;
      var oy := c.orders[y.order].owner;
      StatusUpdatesCommute(t.work.orders, x.order, x.status, x.accrual, y.order, y.status, y.accrual);
      Users.BalanceUpdatesCommute(t.work.accounts, ox, x.accrual, 0, oy, y.accrual, 0);
    }
  }

  lemma {:induction false} MoveToFront(c: Store, t: Tx, p: seq<Verdict>, x: Verdict, q: seq<Verdict>, f: Faults)
    requires forall i :: 0 <= i < |p| ==> p[i].order != x.order
    ensures Fold(c, t, p + [x] + q, f) == Fold(c, Step(c, t, x, f), p + q, f)
    decreases |p|
  {
    if |p| > 0 {
      var y := p[0];
      assert (p + [x] + q)[1..] == p[1..] + [x] + q;
      assert (p + q)[1..] == p[1..] + q;
      MoveToFront(c, Step(c, t, y, f), p[1..], x, q, f);
      StepsCommute(c, t, y, x, f);
    } else {
      assert p + [x] + q == [x] + q;
      assert ([x] + q)[1..] == q;
      assert p + q == q;
    }
  }

  /** Taking the first element of `a` and a matching element of `b` out of two
      permutations of each other leaves permutations of each other. */
  lemma RemoveMatching<T>(a: seq<T>, b: seq<T>, i: nat)
    requires |a| > 0 && multiset(a) == multiset(b)
    requires i < |b| && b[i] == a[0]
    ensures multiset(a[1..]) == multiset(b[..i] + b[i + 1..])
  {
    var x, p, q := a[0], b[..i], b[i + 1..];
    assert b == p + [x] + q;
    assert a == [x] + a[1..];
    calc {
      multiset(a[1..]);
      multiset(a) - multiset{x};
      multiset(b) - multiset{x};
      multiset(p) + multiset(q);
      multiset(p + q);
    }
  }

  /** Dropping a record keeps the orders of the rest distinct. */
  lemma RemoveKeepsDistinct(b: seq<Verdict>, i: nat)
    requires DistinctOrders(b) && i < |b|
    ensures DistinctOrders(b[..i] + b[i + 1..])
    ensures forall j :: 0 <= j < i ==> b[j].order != b[i].order
  {
    var b' := b[..i] + b[i + 1..];
    forall k, l | 0 <= k < l < |b'| ensures b'[k].order != b'[l].order {
      var k' := if k < i then k else k + 1;
      var l' := if l < i then l else l + 1;
      assert b'[k] == b[k'] && b'[l] == b[l'];
    }
  }

  lemma {:induction false} FoldPermutation(c: Store, t: Tx, a: seq<Verdict>, b: seq<Verdict>, f: Faults)
    requires multiset(a) == multiset(b) && DistinctOrders(b)
    ensures Fold(c, t, a, f) == Fold(c, t, b, f)
    decreases |a|
  {
    if |a| == 0 {
      assert |b| == |multiset(b)| == 0;
    } else {
      var x := a[0];
      assert x in multiset(b);
      var i :| 0 <= i < |b| && b[i] == x;
      RemoveMatching(a, b, i);
      RemoveKeepsDistinct(b, i);
      FoldPermutation(c, Step(c, t, x, f), a[1..], b[..i] + b[i + 1..], f);
      MoveToFront(c, t, b[..i], x, b[i + 1..], f);
      assert b == b[..i] + [x] + b[i + 1..];
    }
  }

  /** The batch's outcome does not depend on the order in which the merged
      channel delivers the records, as long as no order appears twice. */
  lemma ArrivalOrderIrrelevant(st: Store, a: seq<Verdict>, b: seq<Verdict>, f: Faults)
    requires multiset(a) == multiset(b) && DistinctOrders(b)
    ensures UpdateOrder(st, a, f) == UpdateOrder(st, b, f)
  {
    FoldPermutation(st, Tx(st, false), a, b, f);
  }

  // ---------------------------------------------------------------------------
  // One round of UpdateOrdersStatuses.

  /** The records the merge stage may deliver for `orders`: any arrangement of
      the records collected from one reply per request. */
  predicate Delivery(orders: seq<int>, replies: seq<Reply>, delivered: seq<Verdict>) {
    && |replies| == |orders|
    && multiset(delivered) == multiset(Collect(Requests(|orders|, orders), replies))
  }

  /** UpdateOrdersStatuses' outcome: the store, the requests issued, and the
      error it returns. */
  datatype Round = Round(store: Store, requested: seq<int>, failed: bool)

  /** UpdateOrdersStatuses: request every listed order, merge the replies, apply
      them as one batch. It returns an error whatever happened. */
  function UpdateOrdersStatuses(st: Store, orders: seq<int>, replies: seq<Reply>, delivered: seq<Verdict>, f: Faults): (r: Round)
    requires Orders.Distinct(orders) && Delivery(orders, replies, delivered)
    ensures r.failed
    ensures r.requested == orders
    ensures |orders| == 0 ==> r.store == st
    ensures forall i :: 0 <= i < |delivered| ==> delivered[i].order in orders
    ensures DistinctOrders(delivered)
  {
    RequestsEveryOrder(orders);
    DeliveredAbout(orders, replies, delivered);
    assert |orders| == 0 ==> UpdateOrder(st, delivered, f) == st by {
      if |orders| == 0 {
        assert |delivered| == |multiset(delivered)| == 0;
        EmptyStatusesChangeNothing(st, delivered, f);
      }
    }
    Round(UpdateOrder(st, delivered, f), Requests(|orders|, orders), true)
  }

  /** Delivered records are about listed orders, one record per order at most. */
  lemma DeliveredAbout(orders: seq<int>, replies: seq<Reply>, delivered: seq<Verdict>)
    requires Orders.Distinct(orders) && Delivery(orders, replies, delivered)
    ensures forall i :: 0 <= i < |delivered| ==> delivered[i].order in orders
    ensures DistinctOrders(delivered)
  {
    RequestsEveryOrder(orders);
    var collected := Collect(orders, replies);
    CollectDistinct(orders, replies);
    forall i | 0 <= i < |delivered| ensures delivered[i].order in orders {
      assert delivered[i] in multiset(collected);
    }
    forall i, j | 0 <= i < j < |delivered| ensures delivered[i].order != delivered[j].order {
      if delivered[i].order == delivered[j].order {
        assert delivered[i] in multiset(collected) && delivered[j] in multiset(collected);
        SameOrderSameRecord(orders, replies, delivered[i], delivered[j]);
        TwiceCountsTwice(delivered, i, j);
        DistinctHasSingletons(collected, delivered[i]);
        assert false;
      }
    }
  }

  lemma TwiceCountsTwice<T>(s: seq<T>, i: nat, j: nat)
    requires i < j < |s| && s[i] == s[j]
    ensures multiset(s)[s[i]] >= 2
  {
    assert s == s[..i] + [s[i]] + s[i + 1..];
    assert s[i + 1..][j - i - 1] == s[j];
    assert multiset(s) == multiset(s[..i]) + multiset{s[i]} + multiset(s[i + 1..]);
  }

  /** Two collected records about one order are the same record. */
  lemma SameOrderSameRecord(orders: seq<int>, replies: seq<Reply>, v: Verdict, w: Verdict)
    requires Orders.Distinct(orders) && |replies| == |orders|
    requires v in Collect(orders, replies) && w in Collect(orders, replies) && v.order == w.order
    ensures v == w
  {
    CollectSource(orders, replies, v);
    CollectSource(orders, replies, w);
    var i :| 0 <= i < |orders| && Classify(orders[i], replies[i]) == Some(v);
    var j :| 0 <= j < |orders| && Classify(orders[j], replies[j]) == Some(w);
    assert orders[i] == v.order && orders[j] == w.order;
  }

  /** In a list of records about distinct orders every record occurs once. */
  lemma {:induction false} DistinctHasSingletons(vs: seq<Verdict>, v: Verdict)
    requires DistinctOrders(vs)
    ensures multiset(vs)[v] <= 1
  {
    if |vs| > 0 {
      assert vs == [vs[0]] + vs[1..];
      assert DistinctOrders(vs[1..]) by {
        forall i, j | 0 <= i < j < |vs[1..]| ensures vs[1..][i].order != vs[1..][j].order {
          assert vs[1..][i] == vs[i + 1] && vs[1..][j] == vs[j + 1];
        }
      }
      DistinctHasSingletons(vs[1..], v);
      if vs[0] == v {
        assert forall k :: 0 <= k < |vs[1..]| ==> vs[1..][k] != v by {
          forall k | 0 <= k < |vs[1..]| ensures vs[1..][k] != v {
            assert vs[1..][k] == vs[k + 1];
          }
        }
        assert v !in vs[1..];
      }
    }
  }
}

=== FILE: loader_run.dfy ===
/** StartLoader over time: each tick lists the pending orders, polls the
    accrual service for them and applies the replies as one batch. */
module LoaderRun {
  import opened Common
  import opened Depository
  import Orders
  import opened Loader

  /** What one tick meets: the listing, the service's reply to each listed order
      (by position), the order in which the merge delivers the records, and the
      database faults of the batch. */
  datatype Tick = Tick(listing: Orders.Listing, replies: seq<Reply>, delivered: seq<Verdict>, faults: Faults)

  /** A tick the surroundings can produce from `st`: a listing holds exactly the
      pending orders, and the delivered records come from its replies. */
  predicate Possible(st: Store, k: Tick) {
    k.listing.Listed? ==>
      Orders.Enumerates(k.listing.orders, Orders.PendingSet(st)) && Delivery(k.listing.orders, k.replies, k.delivered)
  }

  /** One tick of StartLoader: a failed listing only logs, anything else runs
      UpdateOrdersStatuses (whose error is logged, never acted on). */
  function Cycle(st: Store, k: Tick): (r: Store)
    requires Possible(st, k)
    ensures k.listing.ListFailed? ==> r == st
    ensures k.listing.Listed? ==> r == UpdateOrder(st, k.delivered, k.faults)
    ensures Framed(st, r)
  {
    match k.listing
    case ListFailed => st
    case Listed(os) => UpdateOrdersStatuses(st, os, k.replies, k.delivered, k.faults).store
  }

  predicate Feasible(st: Store, ks: seq<Tick>)
    decreases |ks|
  {
    |ks| == 0 || (Possible(st, ks[0]) && Feasible(Cycle(st, ks[0]), ks[1..]))
  }

  /** The stores StartLoader goes through, one per tick. */
  function StartLoader(st: Store, ks: seq<Tick>): (trace: seq<Store>)
    requires Feasible(st, ks)
    ensures |trace| == |ks| + 1 && trace[0] == st
    decreases |ks|
  {
    if |ks| == 0 then [st] else [st] + StartLoader(Cycle(st, ks[0]), ks[1..])
  }

  /** Each store of the trace is the previous one after its tick. */
  lemma {:induction false} TraceSteps(st: Store, ks: seq<Tick>, i: nat)
    requires Feasible(st, ks) && i < |ks|
    ensures var trace := StartLoader(st, ks);
      Possible(trace[i], ks[i]) && trace[i + 1] == Cycle(trace[i], ks[i])
    decreases i
  {
    if i > 0 {
      TraceSteps(Cycle(st, ks[0]), ks[1..], i - 1);
    }
  }

  /** A batch in which no record with a status names `o` leaves `o`'s row alone. */
  lemma UntouchedWithoutVerdict(st: Store, vs: seq<Verdict>, f: Faults, o: int)
    requires o in st.orders
    requires forall i :: 0 <= i < |vs| ==> vs[i].order != o || vs[i].status == ""
    ensures UpdateOrder(st, vs, f).orders[o] == st.orders[o]
  {
    if !f.beginFails && NoWriteFails(st, vs, f) {
      UpdateOrderReference(st, vs, f);
    }
  }

  lemma RoundStore(st: Store, os: seq<int>, replies: seq<Reply>, delivered: seq<Verdict>, f: Faults)
    requires Orders.Distinct(os) && Delivery(os, replies, delivered)
    ensures UpdateOrdersStatuses(st, os, replies, delivered, f).store == UpdateOrder(st, delivered, f)
  {
  }

  /** An order that is not pending is not listed, so no tick touches its row,
      no delivered record is about it, and it adds nothing to any credit. */
  lemma CycleKeepsSettled(st: Store, k: Tick, o: int)
    requires Possible(st, k)
    requires o in st.orders && !Orders.IsPending(st.orders[o].status)
    ensures o in Cycle(st, k).orders && Cycle(st, k).orders[o] == st.orders[o]
    ensures k.listing.Listed? ==> o !in k.listing.orders && About(k.delivered, o) == []
    ensures k.listing.Listed? ==> forall u :: CreditTo(st, k.delivered, u) == CreditTo(st, Without(k.delivered, o), u)
  {
    if k.listing.Listed? {
      var os := k.listing.orders;
      assert o !in Orders.PendingSet(st);
      assert o !in os;
      DeliveredAbout(os, k.replies, k.delivered);
      AboutNone(k.delivered, o);
      forall u ensures CreditTo(st, k.delivered, u) == CreditTo(st, Without(k.delivered, o), u) {
        CreditSplit(st, k.delivered, o, u);
      }
      UntouchedWithoutVerdict(st, k.delivered, k.faults, o);
    }
  }

  /** Once an order has left NEW and PROCESSING, its row (status and accrual)
      never changes again, it is never requested again, and no later tick
      delivers a record about it, so its accrual is never credited again. */
  lemma {:induction false} SettledStaysSettled(st: Store, ks: seq<Tick>, o: int, j: nat)
    requires Feasible(st, ks) && j <= |ks|
    requires o in st.orders && !Orders.IsPending(st.orders[o].status)
    ensures var trace := StartLoader(st, ks);
      o in trace[j].orders && trace[j].orders[o] == st.orders[o]
    ensures forall i :: 0 <= i < j && ks[i].listing.Listed? ==> o !in ks[i].listing.orders
    ensures forall i :: 0 <= i < j && ks[i].listing.Listed? ==> About(ks[i].delivered, o) == []
    decreases j
  {
    if j > 0 {
      var trace := StartLoader(st, ks);
      SettledStaysSettled(st, ks, o, j - 1);
      TraceSteps(st, ks, j - 1);
      CycleKeepsSettled(trace[j - 1], ks[j - 1], o);
    }
  }

  /** A tick whose listing fails leaves the store as it was. */
  lemma ListingFailureIdles(st: Store, ks: seq<Tick>, i: nat)
    requires Feasible(st, ks) && i < |ks| && ks[i].listing.ListFailed?
    ensures StartLoader(st, ks)[i + 1] == StartLoader(st, ks)[i]
  {
    TraceSteps(st, ks, i);
  }

  /** A listed order whose reply is a transport error, 429, 500 or an unexpected
      code keeps its row, so a pending order stays pending and the next tick
      polls it again. */
  lemma DeferredReplyKeepsOrder(st: Store, os: seq<int>, replies: seq<Reply>, delivered: seq<Verdict>, f: Faults, k: nat)
    requires Orders.Distinct(os) && Delivery(os, replies, delivered)
    requires k < |os| && os[k] in st.orders
    requires replies[k].TransportError?
             || replies[k].code !in {StatusOK, StatusNoContent}
    ensures var r := UpdateOrdersStatuses(st, os, replies, delivered, f).store;
      os[k] in r.orders && r.orders[os[k]] == st.orders[os[k]]
    ensures Orders.IsPending(st.orders[os[k]].status) ==>
              os[k] in Orders.PendingSet(UpdateOrdersStatuses(st, os, replies, delivered, f).store)
  {
    RequestsEveryOrder(os);
    forall i | 0 <= i < |delivered| && delivered[i].order == os[k]
      ensures delivered[i].status == ""
    {
      var v := delivered[i];
      assert v in multiset(Collect(os, replies));
      CollectSource(os, replies, v);
      var m :| 0 <= m < |os| && Classify(os[m], replies[m]) == Some(v);
      assert m == k;
    }
    UntouchedWithoutVerdict(st, delivered, f, os[k]);
  }

  /** A listed order whose reply classifies to a record with a status (a 200,
      or a 204 read as INVALID) ends the committed round with that status and
      accrual, and its owner's balance rises by that accrual on top of what the
      records about the owner's other orders credit. */
  lemma ClassifiedReplyApplied(st: Store, os: seq<int>, replies: seq<Reply>, delivered: seq<Verdict>, f: Faults, k: nat)
    requires Orders.Distinct(os) && Delivery(os, replies, delivered)
    requires k < |os| && os[k] in st.orders
    requires Classify(os[k], replies[k]).Some? && Classify(os[k], replies[k]).value.status != ""
    requires !f.beginFails && NoWriteFails(st, delivered, f)
    ensures var v := Classify(os[k], replies[k]).value;
      var r := UpdateOrdersStatuses(st, os, replies, delivered, f).store;
      var u := st.orders[os[k]].owner;
      && os[k] in r.orders && r.orders[os[k]] == OrderRow(v.status, v.accrual, u)
      && (u in st.accounts ==>
            u in r.accounts
            && r.accounts[u] == Account(st.accounts[u].balance + v.accrual + CreditTo(st, Without(delivered, os[k]), u),
                                        st.accounts[u].withdrawn))
  {
    var v := Classify(os[k], replies[k]).value;
    var o := os[k];
    var u := st.orders[o].owner;
    DeliveredVerdictIsLast(os, replies, delivered, k, v);
    RequestsEveryOrder(os);
    UpdateOrderReference(st, delivered, f);
    CreditSplit(st, delivered, o, u);
    assert CreditTo(st, [v], u) == v.accrual by {
      assert [v][1..] == [];
    }
  }

  /** The record a listed order's reply classifies to is delivered, and it is
      the only delivered record about that order. */
  lemma DeliveredVerdictIsLast(os: seq<int>, replies: seq<Reply>, delivered: seq<Verdict>, k: nat, v: Verdict)
    requires Orders.Distinct(os) && Delivery(os, replies, delivered)
    requires k < |os| && Classify(os[k], replies[k]) == Some(v) && v.status != ""
    ensures LastVerdict(delivered, os[k]) == Some(v) && About(delivered, os[k]) == [v]
  {
    RequestsEveryOrder(os);
    CollectComplete(os, replies, k, v);
    assert v in multiset(delivered);
    DeliveredAbout(os, replies, delivered);
    var lv := LastVerdict(delivered, os[k]);
    assert lv.Some? by {
      var i :| 0 <= i < |delivered| && delivered[i] == v;
    }
    assert lv.value == v by {
      assert lv.value in multiset(delivered);
      SameOrderSameRecord(os, replies, lv.value, v);
    }
    AboutDistinct(delivered, v);
  }

  /** Accruals that are not negative never lower a balance. */
  lemma {:induction false} CreditsNotNegative(c: Store, vs: seq<Verdict>, u: int)
    requires forall i :: 0 <= i < |vs| ==> vs[i].accrual >= 0
    ensures CreditTo(c, vs, u) >= 0
  {
    if |vs| > 0 {
      CreditsNotNegative(c, vs[1..], u);
    }
  }

  lemma BatchNeverLowersBalances(st: Store, vs: seq<Verdict>, f: Faults, u: int)
    requires forall i :: 0 <= i < |vs| ==> vs[i].accrual >= 0
    requires u in st.accounts
    ensures var r := UpdateOrder(st, vs, f);
      u in r.accounts && r.accounts[u].balance >= st.accounts[u].balance
      && r.accounts[u].withdrawn == st.accounts[u].withdrawn
  {
    if !f.beginFails && NoWriteFails(st, vs, f) {
      UpdateOrderReference(st, vs, f);
      CreditsNotNegative(st, vs, u);
    }
  }

  /** Records whose status is empty or one of the five names keep every stored
      status one of the five names; any other text is stored as received. */
  lemma KnownStatusesStayKnown(st: Store, vs: seq<Verdict>, f: Faults)
    requires Orders.StatusesKnown(st)
    requires forall i :: 0 <= i < |vs| ==> vs[i].status == "" || Orders.IsKnown(vs[i].status)
    ensures Orders.StatusesKnown(UpdateOrder(st, vs, f))
  {
    if !f.beginFails && NoWriteFails(st, vs, f) {
      UpdateOrderReference(st, vs, f);
      var r := UpdateOrder(st, vs, f);
      forall o | o in r.orders ensures Orders.IsKnown(r.orders[o].status) {
        var lv := LastVerdict(vs, o);
        if lv.Some? {
          var i :| 0 <= i < |vs| && vs[i] == lv.value;
        }
      }
    }
  }

  /** The outcome of the two-order example below: order 111 PROCESSED with
      50.00 credited to user 1, order 222 INVALID with nothing credited. */
  predicate ProcessedAndInvalidOutcome(st: Store, r: Store)
    requires 1 in st.accounts && 2 in st.accounts
  {
    && 111 in r.orders && r.orders[111] == OrderRow("PROCESSED", 5000, 1)
    && 222 in r.orders && r.orders[222] == OrderRow("INVALID", 0, 2)
    && 1 in r.accounts && r.accounts[1] == Account(st.accounts[1].balance + 5000, st.accounts[1].withdrawn)
    && 2 in r.accounts && r.accounts[2] == st.accounts[2]
  }

  /** Faults that spare the given orders and users, so their writes succeed. */
  predicate Spares(f: Faults, orders: set<int>, users: set<int>) {
    !f.beginFails && orders !! f.statusWriteFails && orders !! f.lookupFails && users !! f.balanceWriteFails
  }

  /** Two NEW orders of users 1 and 2: the service answers 200 PROCESSED with an
      accrual of 50.00 for the first and 204 for the second. Whatever the arrival
      order, the first is PROCESSED with the accrual credited to user 1, and the
      second is INVALID with nothing credited. */
  lemma ProcessedAndInvalid(st: Store, delivered: seq<Verdict>, f: Faults)
    requires 111 in st.orders && st.orders[111] == OrderRow("NEW", 0, 1)
    requires 222 in st.orders && st.orders[222] == OrderRow("NEW", 0, 2)
    requires 1 in st.accounts && 2 in st.accounts
    requires Spares(f, {111, 222}, {1, 2})
    requires Delivery([111, 222], [Http(StatusOK, Decoded("PROCESSED", 5000, false)), Http(StatusNoContent, Undecodable)], delivered)
    ensures ProcessedAndInvalidOutcome(st, UpdateOrder(st, delivered, f))
  {
    var vs := [Verdict(111, "PROCESSED", 5000), Verdict(222, "INVALID", 0)];
    ProcessedAndInvalidDelivery(delivered);
    assert DistinctOrders(vs);
    ArrivalOrderIrrelevant(st, delivered, vs, f);
    ProcessedAndInvalidBatch(st, vs, f);
  }

  /** The records the example's replies produce, in whatever arrival order. */
  lemma ProcessedAndInvalidDelivery(delivered: seq<Verdict>)
    requires Delivery([111, 222], [Http(StatusOK, Decoded("PROCESSED", 5000, false)), Http(StatusNoContent, Undecodable)], delivered)
    ensures multiset(delivered) == multiset([Verdict(111, "PROCESSED", 5000), Verdict(222, "INVALID", 0)])
  {
    var os := [111, 222];
    var replies := [Http(StatusOK, Decoded("PROCESSED", 5000, false)), Http(StatusNoContent, Undecodable)];
    assert Requests(2, os) == os by {
      assert Requests(0, os[1..][1..]) == [];
    }
    assert Collect(os[1..][1..], replies[1..][1..]) == [];
    assert Collect(os, replies) == [Verdict(111, "PROCESSED", 5000), Verdict(222, "INVALID", 0)];
  }

  lemma ProcessedAndInvalidBatch(st: Store, vs: seq<Verdict>, f: Faults)
    requires 111 in st.orders && st.orders[111] == OrderRow("NEW", 0, 1)
    requires 222 in st.orders && st.orders[222] == OrderRow("NEW", 0, 2)
    requires 1 in st.accounts && 2 in st.accounts
    requires Spares(f, {111, 222}, {1, 2})
    requires vs == [Verdict(111, "PROCESSED", 5000), Verdict(222, "INVALID", 0)]
    ensures ProcessedAndInvalidOutcome(st, UpdateOrder(st, vs, f))
  {
    assert NoWriteFails(st, vs, f);
    UpdateOrderReference(st, vs, f);
    assert vs[1..][1..] == [];
    assert LastVerdict(vs, 111) == Some(vs[0]);
    assert LastVerdict(vs, 222) == Some(vs[1]);
    assert CreditTo(st, vs[1..], 1) == 0;
    assert CreditTo(st, vs[1..], 2) == 0;
  }

  /** A 429 for the only listed order changes nothing. */
  lemma TooManyRequestsChangesNothing(st: Store, delivered: seq<Verdict>, f: Faults)
    requires 333 in st.orders && st.orders[333].status == "NEW"
    requires Delivery([333], [Http(StatusTooManyRequests, Undecodable)], delivered)
    ensures var r := UpdateOrdersStatuses(st, [333], [Http(StatusTooManyRequests, Undecodable)], delivered, f).store;
      r == st && Orders.IsPending(r.orders[333].status)
  {
    var os := [333];
    var replies := [Http(StatusTooManyRequests, Undecodable)];
    RequestsEveryOrder(os);
    assert Collect(os, replies) == [Verdict(333, "", 0)] by {
      assert Collect(os[1..], replies[1..]) == [];
    }
    assert delivered == [Verdict(333, "", 0)] by {
      assert |delivered| == |multiset(delivered)| == 1;
      assert delivered[0] in multiset(delivered);
    }
    EmptyStatusesChangeNothing(st, delivered, f);
  }
}

=== FILE: luhn.dfy ===
/** The Luhn check digit test of ISO/IEC 7812-1, Annex B, as the order
    handlers apply it to an order number already parsed into an int. */
module Luhn {
  import opened Numbers

  /** Contribution of one digit: doubled digits above 9 have 9 taken off
      (the same as adding the two decimal digits of the double). */
  function Weigh(d: nat, doubled: bool): nat
    requires d < 10
  {
    if !doubled then d else if 2 * d > 9 then 2 * d - 9 else 2 * d
  }

  /** Luhn sum of `n` read from its least significant digit, which is doubled
      when `doubled` holds; the doubling alternates from digit to digit. */
  function SumFrom(n: nat, doubled: bool): nat {
    if n == 0 then 0 else Weigh(n % 10, doubled) + SumFrom(n / 10, !doubled)
  }

  /** luhn.Valid: the rightmost digit is the check digit, and the total is a
      multiple of 10. The package adds the last digit to the sum of the others,
      which its loop collects only while the number is positive; for a negative
      number that sum is 0, so exactly the negative multiples of 10 pass. */
  predicate Valid(n: int) {
    if n >= 0 then SumFrom(n, false) % 10 == 0 else n % 10 == 0
  }

  /** The same sum over a decimal text, from its rightmost character. */
  function TextSum(s: string, doubled: bool): nat
    requires AllDigits(s)
  {
    if |s| == 0 then 0
    else Weigh(DigitValue(s[|s| - 1]), doubled) + TextSum(s[..|s| - 1], !doubled)
  }

  /** Annex B stated over the printed digits of the number. */
  predicate ValidText(s: string)
    requires AllDigits(s)
  {
    TextSum(s, false) % 10 == 0
  }

  lemma {:induction false} SumMatchesText(n: nat, doubled: bool)
    ensures SumFrom(n, doubled) == TextSum(NatDigits(n), doubled)
  {
    var s := NatDigits(n);
    if n < 10 {
      assert s[..|s| - 1] == [];
    } else {
      SumMatchesText(n / 10, !doubled);
      assert s[..|s| - 1] == NatDigits(n / 10);
    }
  }

  /** The arithmetic test and the test over the decimal text agree on every number. */
  lemma ValidMatchesText(n: nat)
    ensures Valid(n) <==> ValidText(NatDigits(n))
  {
    SumMatchesText(n, false);
  }

  /** The check digit that completes a payload. */
  function CheckDigit(payload: nat): (d: nat)
    ensures d < 10
  {
    (10 - SumFrom(payload, true) % 10) % 10
  }

  /** A last digit `d` brings a sum `t` to a multiple of 10 exactly when it
      is the complement of `t`'s last digit. */
  lemma ComplementDigit(d: nat, t: nat)
    requires d < 10
    ensures (d + t) % 10 == 0 <==> d == (10 - t % 10) % 10
  {
    var r := t % 10;
    assert d + t == (d + r) + 10 * (t / 10);
    assert (d + t) % 10 == (d + r) % 10;
    assert 0 <= d + r < 20;
  }

  /** Exactly one final digit makes a payload valid, so any change of the
      check digit alone is caught. */
  lemma CheckDigitUnique(payload: nat, d: nat)
    requires d < 10
    ensures Valid(10 * payload + d) <==> d == CheckDigit(payload)
  {
    var n := 10 * payload + d;
    assert n % 10 == d && n / 10 == payload;
    assert SumFrom(n, false) == d + SumFrom(payload, true);
    ComplementDigit(d, SumFrom(payload, true));
  }

  /** Every negative multiple of 10 passes, while its positive counterpart passes
      only when 0 is the check digit of the digits before the last. */
  lemma NegativeMultiplesOfTen(k: nat)
    requires k > 0
    ensures Valid(-10 * k)
    ensures Valid(10 * k) <==> CheckDigit(k) == 0
  {
    CheckDigitUnique(k, 0);
  }

  /** The order numbers used by the handler tests. */
  lemma TestVectors()
    ensures Valid(12345678903) && Valid(12345678911)
    ensures !Valid(12345678910) && !Valid(12345678900)
  {
    assert SumFrom(1, false) == 1;
    assert SumFrom(12, true) == 4 + 1;
    assert SumFrom(123, false) == 3 + 5;
    assert SumFrom(1234, true) == 8 + 8;
    assert SumFrom(12345, false) == 5 + 16;
    assert SumFrom(123456, true) == 3 + 21;
    assert SumFrom(1234567, false) == 7 + 24;
    assert SumFrom(12345678, true) == 7 + 31;
    assert SumFrom(123456789, false) == 9 + 38;
    assert SumFrom(1234567890, true) == 47;
    assert SumFrom(1234567891, true) == 2 + 47;
    assert CheckDigit(1234567890) == 3;
    assert CheckDigit(1234567891) == 1;
    CheckDigitUnique(1234567890, 3);
    CheckDigitUnique(1234567891, 1);
    CheckDigitUnique(1234567891, 0);
    CheckDigitUnique(1234567890, 0);
  }
}

=== FILE: numbers.dfy ===
/** Decimal conversion as Go's `strconv.Itoa` and `strconv.Atoi` do it on a
    64-bit platform, including the value Atoi hands back beside an error. */
module Numbers {

  const MaxInt64: int := 0x7fff_ffff_ffff_ffff
  const MinInt64: int := -0x8000_0000_0000_0000
  const MaxUint64: int := 0xffff_ffff_ffff_ffff

  predicate IsDigit(c: char) {
    '0' <= c <= '9'
  }

  predicate AllDigits(s: string) {
    forall i :: 0 <= i < |s| ==> IsDigit(s[i])
  }

  function DigitValue(c: char): nat
    requires IsDigit(c)
  {
    (c - '0') as nat
  }

  function DigitChar(d: nat): (c: char)
    requires d < 10
    ensures IsDigit(c) && DigitValue(c) == d
  {
    ('0' as int + d) as char
  }

  /** The shortest decimal spelling of a natural number. */
  function NatDigits(n: nat): (s: string)
    ensures |s| >= 1 && AllDigits(s)
    ensures |s| > 1 ==> s[0] != '0'
  {
    if n < 10 then [DigitChar(n)] else NatDigits(n / 10) + [DigitChar(n % 10)]
  }

  /** strconv.Itoa: an optional minus sign, then the digits of the magnitude. */
  function Itoa(n: int): string {
    if n < 0 then "-" + NatDigits(-n) else NatDigits(n)
  }

  /** What strconv.ParseUint's digit loop reports: a value, a syntax error
      (a non-digit) or a range error (the value passed 2^64 - 1 first). */
  datatype Scan = Scanned(value: nat) | BadDigit | TooBig

  /** strconv.ParseUint's loop, left to right, with the running value `acc`. */
  function ScanDigits(s: string, acc: nat): (r: Scan)
    requires acc <= MaxUint64
    ensures r.Scanned? ==> AllDigits(s) && acc <= r.value <= MaxUint64
    decreases |s|
  {
    if |s| == 0 then Scanned(acc)
    else if !IsDigit(s[0]) then BadDigit
    else
      var next := acc * 10 + DigitValue(s[0]);
      if next > MaxUint64 then TooBig else ScanDigits(s[1..], next)
  }

  /** strconv.Atoi's two outcomes; `Returned` is the int Go returns beside them. */
  datatype Parsed = Num(value: int) | SyntaxError | RangeError(clamped: int)
  {
    function Returned(): int {
      match this
      case Num(v) => v
      case SyntaxError => 0
      case RangeError(c) => c
    }
  }

  /** strconv.Atoi: optional sign, then at least one decimal digit, value within int64. */
  function Atoi(s: string): (r: Parsed)
    ensures r.Num? ==> MinInt64 <= r.value <= MaxInt64
    ensures r.Num? ==> |s| >= 1 && (AllDigits(s) || ((s[0] == '-' || s[0] == '+') && |s| >= 2 && AllDigits(s[1..])))
    ensures |s| == 0 ==> r == SyntaxError
  {
    if |s| == 0 then SyntaxError
    else
      var neg := s[0] == '-';
      var body := if s[0] == '-' || s[0] == '+' then s[1..] else s;
      if |body| == 0 then SyntaxError
      else
        match ScanDigits(body, 0)
        case BadDigit => SyntaxError
        case TooBig => RangeError(if neg then MinInt64 else MaxInt64)
        case Scanned(u) =>
          if !neg && u > MaxInt64 then RangeError(MaxInt64)
          else if neg && u > -MinInt64 then RangeError(MinInt64)
          else Num(if neg then -(u as int) else u as int)
  }

  /** Appending one digit to a scanned text multiplies by ten and adds it. */
  lemma {:induction false} ScanSnoc(s: string, c: char, acc: nat)
    requires acc <= MaxUint64 && IsDigit(c)
    ensures ScanDigits(s + [c], acc) ==
      match ScanDigits(s, acc)
      case Scanned(v) => if v * 10 + DigitValue(c) > MaxUint64 then TooBig else Scanned(v * 10 + DigitValue(c))
      case other => other
    decreases |s|
  {
    if |s| == 0 {
      assert s + [c] == [c];
      assert [c][1..] == [];
    } else {
      assert (s + [c])[0] == s[0];
      assert (s + [c])[1..] == s[1..] + [c];
      if IsDigit(s[0]) {
        var next := acc * 10 + DigitValue(s[0]);
        if next <= MaxUint64 {
          ScanSnoc(s[1..], c, next);
        }
      }
    }
  }

  /** The scan of a number's own digits gives the number back. */
  lemma {:induction false} ScanNatDigits(n: nat)
    requires n <= MaxUint64
    ensures ScanDigits(NatDigits(n), 0) == Scanned(n)
  {
    if n < 10 {
      assert NatDigits(n)[1..] == [];
    } else {
      ScanNatDigits(n / 10);
      ScanSnoc(NatDigits(n / 10), DigitChar(n % 10), 0);
    }
  }

  /** Atoi inverts Itoa on every int64. */
  lemma AtoiItoa(n: int)
    requires MinInt64 <= n <= MaxInt64
    ensures Atoi(Itoa(n)) == Num(n)
  {
    if n < 0 {
      var s := Itoa(n);
      assert s[1..] == NatDigits(-n);
      ScanNatDigits(-n);
    } else {
      ScanNatDigits(n);
    }
  }

  /** Text with a character other than a sign or a digit never parses. */
  lemma AtoiRejectsNonDigit(s: string, i: int)
    requires 0 < i < |s| && !IsDigit(s[i])
    ensures !Atoi(s).Num?
  {
  }
}

=== FILE: orders.dfy ===
/** Order storage: the status vocabulary, the "in process" listing the loader
    polls, the owner lookup and the insertion of a new order. */
module Orders {
  import opened Common
  import opened Depository

  /** The five statuses an order can be in. */
  datatype Status = New | Registered | Processing | Invalid | Processed

  /** The text stored in the `status` column for each status. */
  function Name(s: Status): string {
    match s
    case New => "NEW"
    case Registered => "REGISTERED"
    case Processing => "PROCESSING"
    case Invalid => "INVALID"
    case Processed => "PROCESSED"
  }

  /** Reads a stored status text back; anything but the five names is unknown. */
  function Parse(t: string): (r: Option<Status>)
    ensures r.Some? ==> Name(r.value) == t
  {
    if t == "NEW" then Some(New)
    else if t == "REGISTERED" then Some(Registered)
    else if t == "PROCESSING" then Some(Processing)
    else if t == "INVALID" then Some(Invalid)
    else if t == "PROCESSED" then Some(Processed)
    else None
  }

  /** Every status has its own name, and reading that name yields the status. */
  lemma NameParse(s: Status)
    ensures Parse(Name(s)) == Some(s)
    ensures forall s' :: Name(s') == Name(s) ==> s' == s
  {
  }

  predicate IsKnown(t: string) {
    Parse(t).Some?
  }

  /** The listing filter: only NEW and PROCESSING orders are polled. */
  predicate IsPending(t: string) {
    t == Name(New) || t == Name(Processing)
  }

  /** Which of the five statuses the listing picks up. */
  lemma PendingStatuses(s: Status)
    ensures IsPending(Name(s)) <==> s == New || s == Processing
  {
  }

  /** Order numbers the listing returns. */
  function PendingSet(st: Store): set<int> {
    set o | o in st.orders && IsPending(st.orders[o].status)
  }

  predicate Distinct(xs: seq<int>) {
    forall i, j :: 0 <= i < j < |xs| ==> xs[i] != xs[j]
  }

  /** `xs` lists the members of `s`, each exactly once, in some order. */
  predicate Enumerates(xs: seq<int>, s: set<int>) {
    Distinct(xs) && (forall i :: 0 <= i < |xs| ==> xs[i] in s) && (forall o :: o in s ==> o in xs)
  }

  /** The outcome of OrderGetOrdersInProcess. */
  datatype Listing = ListFailed | Listed(orders: seq<int>)

  /** OrderGetOrdersInProcess: the numbers of the NEW and PROCESSING orders, in
      whatever order the database returns rows; a query or scan error gives no list. */
  method OrderGetOrdersInProcess(st: Store, queryFails: bool) returns (r: Listing)
    ensures queryFails <==> r.ListFailed?
    ensures r.Listed? ==> Enumerates(r.orders, PendingSet(st))
  {
    if queryFails {
      return ListFailed;
    }
    var rest := st.orders.Keys;
    var acc: seq<int> := [];
    while rest != {}
      invariant rest <= st.orders.Keys
      invariant Distinct(acc)
      invariant forall i :: 0 <= i < |acc| ==> acc[i] in PendingSet(st) && acc[i] !in rest
      invariant forall o :: o in PendingSet(st) ==> o in acc || o in rest
      decreases rest
    {
      if forall x :: x !in rest {
        assert false;  // the loop guard says rest has a member
      }
      var k :| k in rest;
      if IsPending(st.orders[k].status) {
        acc := acc + [k];
      }
      rest := rest - {k};
    }
    return Listed(acc);
  }

  /** OrderUserCheck: the owner's id; 0 with ErrNoRows for an unknown order;
      -1 with another error when the query fails. */
  function OrderUserCheck(st: Store, order: int, queryFails: bool): (r: IdResult)
    ensures queryFails ==> r == IdResult(-1, Some(ErrDatabase))
    ensures !queryFails && order !in st.orders ==> r == IdResult(0, Some(ErrNoRows))
    ensures r.err.None? <==> !queryFails && order in st.orders
    ensures r.err.None? ==> r.id == st.orders[order].owner
  {
    if queryFails then IdResult(-1, Some(ErrDatabase))
    else if order !in st.orders then IdResult(0, Some(ErrNoRows))
    else IdResult(st.orders[order].owner, None)
  }

  /** OrderNew: inserts the order as NEW, with no accrual, linked to `user`.
      The insert fails (None) on a database error or when the number is taken,
      since `order_number` is unique. */
  function OrderNew(st: Store, user: int, order: int, insertFails: bool): (r: Option<Store>)
    ensures r.None? <==> insertFails || order in st.orders
    ensures r.Some? ==> r.value.orders == st.orders[order := OrderRow(Name(New), 0, user)]
    ensures r.Some? ==> (r.value.users == st.users && r.value.accounts == st.accounts
                         && r.value.withdrawals == st.withdrawals && r.value.nextUserId == st.nextUserId)
  {
    if insertFails || order in st.orders then None
    else Some(st.(orders := st.orders[order := OrderRow(Name(New), 0, user)]))
  }

  /** The status write the loader issues: set status and accrual of a stored
      order, leaving its owner; an unknown number matches no row. */
  function StatusUpdate(orders: map<int, OrderRow>, order: int, status: string, accrual: int): (r: map<int, OrderRow>)
    ensures r.Keys == orders.Keys
    ensures order in orders ==> r[order] == OrderRow(status, accrual, orders[order].owner)
    ensures forall o :: o in orders && o != order ==> r[o] == orders[o]
  {
    if order in orders then orders[order := orders[order].(status := status, accrual := accrual)] else orders
  }

  /** OrderGetUserOrders: the numbers of the orders linked to `user`. */
  function UserOrders(st: Store, user: int): set<int> {
    set o | o in st.orders && st.orders[o].owner == user
  }

  /** The per-user listings split the stored orders: different users' listings
      share no order, and every stored order is listed for its owner. */
  lemma UserOrdersPartition(st: Store, u1: int, u2: int)
    ensures u1 != u2 ==> UserOrders(st, u1) * UserOrders(st, u2) == {}
    ensures forall o :: o in st.orders ==> o in UserOrders(st, st.orders[o].owner)
  {
  }

  /** A new order is polled from the next listing on: a successful OrderNew adds
      exactly its number to the pending set. */
  lemma OrderNewIsPending(st: Store, user: int, order: int, insertFails: bool)
    ensures OrderNew(st, user, order, insertFails).Some? ==>
              PendingSet(OrderNew(st, user, order, insertFails).value) == PendingSet(st) + {order}
  {
    if OrderNew(st, user, order, insertFails).Some? {
      var st' := OrderNew(st, user, order, insertFails).value;
      assert st'.orders[order].status == Name(New);
    }
  }

  /** Every stored status is one of the five names. */
  predicate StatusesKnown(st: Store) {
    forall o :: o in st.orders ==> IsKnown(st.orders[o].status)
  }

  /** Inserting a new order keeps every stored status one of the five names. */
  lemma OrderNewKeepsStatusesKnown(st: Store, user: int, order: int, insertFails: bool)
    requires StatusesKnown(st)
    ensures OrderNew(st, user, order, insertFails).Some? ==> StatusesKnown(OrderNew(st, user, order, insertFails).value)
  {
  }
}

=== FILE: text.dfy ===
/** The parts of Go's `strings` package the core relies on: `Index`,
    `Contains` and `Split` with a non-empty separator, and its inverse `Join`. */
module Text {

  /** `sep` occurs in `s` starting at position `k`. */
  predicate OccursAt(s: string, sep: string, k: int) {
    0 <= k && k + |sep| <= |s| && s[k..k + |sep|] == sep
  }

  /** The characters of an occurrence are those of the separator. */
  lemma OccursAtChar(s: string, sep: string, k: int, j: int)
    ensures OccursAt(s, sep, k) && 0 <= j < |sep| ==> s[k + j] == sep[j]
  {
    if OccursAt(s, sep, k) && 0 <= j < |sep| {
      assert s[k..k + |sep|][j] == s[k + j];
    }
  }

  /** An occurrence past the end of a prefix is an occurrence in the suffix. */
  lemma OccursInSuffix(a: string, b: string, sep: string, k: int)
    ensures OccursAt(a + b, sep, k) && k >= |a| ==> OccursAt(b, sep, k - |a|)
  {
    if OccursAt(a + b, sep, k) && k >= |a| {
      assert (a + b)[k..k + |sep|] == b[k - |a|..k - |a| + |sep|];
    }
  }

  /** strings.Index from position `i` on: the first occurrence at or after `i`, or -1. */
  function IndexFrom(s: string, sep: string, i: nat): (r: int)
    requires i <= |s|
    ensures r == -1 || (i <= r && OccursAt(s, sep, r))
    ensures r == -1 ==> forall k :: i <= k && OccursAt(s, sep, k) ==> false
    ensures r >= 0 ==> forall k :: i <= k < r ==> !OccursAt(s, sep, k)
    decreases |s| - i
  {
    if i + |sep| > |s| then -1
    else if s[i..i + |sep|] == sep then i
    else IndexFrom(s, sep, i + 1)
  }

  /** strings.Index: the position of the first occurrence of `sep`, or -1. */
  function Index(s: string, sep: string): (r: int)
    ensures r == -1 <==> forall k :: !OccursAt(s, sep, k)
    ensures r >= 0 ==> OccursAt(s, sep, r) && forall k :: 0 <= k < r ==> !OccursAt(s, sep, k)
  {
    IndexFrom(s, sep, 0)
  }

  /** strings.Contains. */
  predicate Contains(s: string, sub: string) {
    Index(s, sub) >= 0
  }

  /** Contains agrees with the plain existence of an occurrence. */
  lemma ContainsMeansOccurs(s: string, sub: string)
    ensures Contains(s, sub) <==> exists k :: OccursAt(s, sub, k)
  {
    if Contains(s, sub) {
      assert OccursAt(s, sub, Index(s, sub));
    }
  }

  /** strings.Split for a non-empty separator: cut at each occurrence found
      scanning left to right. */
  function Split(s: string, sep: string): (r: seq<string>)
    requires |sep| > 0
    ensures |r| >= 1
    decreases |s|
  {
    var m := Index(s, sep);
    if m < 0 then [s] else [s[..m]] + Split(s[m + |sep|..], sep)
  }

  /** strings.Join. */
  function Join(parts: seq<string>, sep: string): string {
    if |parts| == 0 then ""
    else if |parts| == 1 then parts[0]
    else parts[0] + sep + Join(parts[1..], sep)
  }

  /** Splitting loses nothing: joining the pieces with the separator gives the input back. */
  lemma {:induction false} JoinSplit(s: string, sep: string)
    requires |sep| > 0
    ensures Join(Split(s, sep), sep) == s
    decreases |s|
  {
    var m := Index(s, sep);
    if m >= 0 {
      var rest := s[m + |sep|..];
      var pieces := Split(rest, sep);
      assert Split(s, sep) == [s[..m]] + pieces;
      assert ([s[..m]] + pieces)[1..] == pieces;
      assert Join([s[..m]] + pieces, sep) == s[..m] + sep + Join(pieces, sep);
      JoinSplit(rest, sep);
      assert s == s[..m] + sep + rest;
    }
  }


  /** No piece of a split contains the separator. */
  lemma {:induction false} SplitPiecesFree(s: string, sep: string)
    requires |sep| > 0
    ensures forall i :: 0 <= i < |Split(s, sep)| ==> !Contains(Split(s, sep)[i], sep)
    decreases |s|
  {
    var m := Index(s, sep);
    if m >= 0 {
      var rest := s[m + |sep|..];
      SplitPiecesFree(rest, sep);
      var head := s[..m];
      if Contains(head, sep) {
        var k := Index(head, sep);
        assert head[k..k + |sep|] == s[k..k + |sep|];
        assert OccursAt(s, sep, k);
      }
    }
  }

  /** A text without the separator is its own single piece. */
  lemma SplitNone(s: string, sep: string)
    requires |sep| > 0 && !Contains(s, sep)
    ensures Split(s, sep) == [s]
  {
  }

  /** When the first occurrence of the separator ends `a`, the pieces are `a`
      followed by the pieces of what comes after it. */
  lemma SplitCons(a: string, sep: string, rest: string)
    requires |sep| > 0
    requires forall k :: 0 <= k < |a| ==> !OccursAt(a + sep + rest, sep, k)
    ensures Split(a + sep + rest, sep) == [a] + Split(rest, sep)
  {
    var s := a + sep + rest;
    assert OccursAt(s, sep, |a|) by {
      assert s[|a|..|a| + |sep|] == sep;
    }
    assert Index(s, sep) == |a|;
    assert s[..|a|] == a;
    assert s[|a| + |sep|..] == rest;
  }

  /** An occurrence in a suffix is an occurrence in the whole text. */
  lemma OccursShifted(a: string, b: string, sep: string, j: int)
    ensures OccursAt(b, sep, j) ==> OccursAt(a + b, sep, j + |a|)
  {
    if OccursAt(b, sep, j) {
      assert (a + b)[j + |a|..j + |a| + |sep|] == b[j..j + |sep|];
    }
  }

  /** A text with exactly one occurrence of the separator splits into the two sides. */
  lemma SplitOne(a: string, sep: string, b: string)
    requires |sep| > 0
    requires forall k :: OccursAt(a + sep + b, sep, k) <==> k == |a|
    ensures Split(a + sep + b, sep) == [a, b]
  {
    SplitCons(a, sep, b);
    forall j | OccursAt(b, sep, j) ensures false {
      OccursShifted(a + sep, b, sep, j);
    }
    SplitNone(b, sep);
  }


  /** Two non-overlapping occurrences of the separator give at least three pieces. */
  lemma SplitFound(s: string, sep: string)
    requires |sep| > 0 && Index(s, sep) >= 0
    ensures |Split(s, sep)| == 1 + |Split(s[Index(s, sep) + |sep|..], sep)|
  {
  }

  lemma IndexBefore(s: string, sep: string, k: int)
    requires OccursAt(s, sep, k)
    ensures 0 <= Index(s, sep) <= k
  {
  }

  lemma SplitTwo(s: string, sep: string, k1: int, k2: int)
    requires |sep| > 0
    requires OccursAt(s, sep, k1) && OccursAt(s, sep, k2) && k1 + |sep| <= k2
    ensures |Split(s, sep)| >= 3
  {
    IndexBefore(s, sep, k1);
    var m := Index(s, sep);
    var pre := s[..m + |sep|];
    var rest := s[m + |sep|..];
    assert s == pre + rest;
    OccursInSuffix(pre, rest, sep, k2);
    IndexBefore(rest, sep, k2 - |pre|);
    SplitFound(rest, sep);
    SplitFound(s, sep);
  }


}

=== FILE: users.dfy ===
/** User storage: registration with a zero balance, credential lookup, the
    additive balance update and the withdrawal transaction. */
module Users {
  import opened Common
  import opened Depository

  /** UserBalanceUpdate: balance += b and withdrawn += w for `user`; a user
      without a balance row matches no row and nothing changes. */
  function BalanceUpdate(accounts: map<int, Account>, user: int, b: int, w: int): (r: map<int, Account>)
    ensures r.Keys == accounts.Keys
    ensures user in accounts ==> r[user] == Account(accounts[user].balance + b, accounts[user].withdrawn + w)
    ensures forall u :: u in accounts && u != user ==> r[u] == accounts[u]
  {
    if user in accounts
    then accounts[user := Account(accounts[user].balance + b, accounts[user].withdrawn + w)]
    else accounts
  }

  /** Two updates of the same user add up to one. */
  lemma BalanceUpdatesAdd(accounts: map<int, Account>, user: int, b1: int, w1: int, b2: int, w2: int)
    ensures BalanceUpdate(BalanceUpdate(accounts, user, b1, w1), user, b2, w2)
         == BalanceUpdate(accounts, user, b1 + b2, w1 + w2)
  {
  }

  /** Updates commute, whichever users they touch. */
  lemma BalanceUpdatesCommute(accounts: map<int, Account>, u1: int, b1: int, w1: int, u2: int, b2: int, w2: int)
    ensures BalanceUpdate(BalanceUpdate(accounts, u1, b1, w1), u2, b2, w2)
         == BalanceUpdate(BalanceUpdate(accounts, u2, b2, w2), u1, b1, w1)
  {
    var l := BalanceUpdate(BalanceUpdate(accounts, u1, b1, w1), u2, b2, w2);
    var r := BalanceUpdate(BalanceUpdate(accounts, u2, b2, w2), u1, b1, w1);
    assert forall u :: u in l ==> l[u] == r[u];
  }

  /** The opposite update undoes an update. */
  lemma BalanceUpdateUndo(accounts: map<int, Account>, user: int, b: int, w: int)
    ensures BalanceUpdate(BalanceUpdate(accounts, user, b, w), user, -b, -w) == accounts
  {
    BalanceUpdatesAdd(accounts, user, b, w, -b, -w);
    var r := BalanceUpdate(accounts, user, 0, 0);
    assert forall u :: u in r ==> r[u] == accounts[u];
  }

  /** UserCheckExistLogin: true only when the lookup finds the login; a failed
      query reads as "does not exist". */
  predicate UserCheckExistLogin(st: Store, login: string, queryFails: bool) {
    !queryFails && login in st.users
  }

  /** Which of the database steps of UserRegister fail. */
  datatype RegisterFaults = RegisterFaults(beginFails: bool, insertUserFails: bool, insertBalanceFails: bool)

  const NoRegisterFaults := RegisterFaults(false, false, false)

  /** UserRegister's `(id, err)` together with the resulting store. */
  datatype Registration = Registration(id: int, failed: bool, store: Store)

  /** The store after a user is inserted under the next id with an empty balance row. */
  function Enrolled(st: Store, login: string, password: string): Store {
    st.(users := st.users[login := UserRow(st.nextUserId, password)],
        accounts := st.accounts[st.nextUserId := Account(0, 0)],
        nextUserId := st.nextUserId + 1)
  }

  /** UserRegister: -1 and no change when the transaction cannot start, when the
      login is taken (`login` is unique) or the insert fails, or when the balance
      row cannot be inserted (`user_id` is unique there); otherwise the new id. */
  function UserRegister(st: Store, login: string, password: string, f: RegisterFaults): (r: Registration)
    ensures r.failed <==> f.beginFails || f.insertUserFails || login in st.users
                          || f.insertBalanceFails || st.nextUserId in st.accounts
    ensures r.failed ==> r.id == -1 && r.store == st
    ensures !r.failed ==> r.id == st.nextUserId && r.store == Enrolled(st, login, password)
  {
    if f.beginFails then Registration(-1, true, st)
    else if f.insertUserFails || login in st.users then Registration(-1, true, st)
    else if f.insertBalanceFails || st.nextUserId in st.accounts then Registration(-1, true, st)
    else Registration(st.nextUserId, false, Enrolled(st, login, password))
  }

  /** Users, ids and balance rows fit together: ids are positive, below the
      next sequence value, unique per login, and each user has a balance row. */
  predicate Consistent(st: Store) {
    && st.nextUserId >= 1
    && (forall l :: l in st.users ==> 1 <= st.users[l].id < st.nextUserId && st.users[l].id in st.accounts)
    && (forall u :: u in st.accounts ==> u < st.nextUserId)
    && (forall l1, l2 :: l1 in st.users && l2 in st.users && l1 != l2 ==> st.users[l1].id != st.users[l2].id)
  }

  /** A registered user starts with a zero balance and nothing withdrawn, and
      registration keeps the store consistent. */
  lemma RegisterStartsEmpty(st: Store, login: string, password: string, f: RegisterFaults)
    requires Consistent(st)
    ensures var r := UserRegister(st, login, password, f);
      && Consistent(r.store)
      && (!r.failed ==> r.id >= 1 && r.store.accounts[r.id] == Account(0, 0) && r.id !in st.accounts)
  {
  }

  /** UserAuthorization: the id when login and password match a row, 0 with
      ErrNoRows when none does, -1 with another error when the query fails. */
  function UserAuthorization(st: Store, login: string, password: string, queryFails: bool): (r: IdResult)
    ensures queryFails ==> r == IdResult(-1, Some(ErrDatabase))
    ensures !queryFails ==> (r.err.None? <==> login in st.users && st.users[login].password == password)
    ensures !queryFails && r.err.Some? ==> r == IdResult(0, Some(ErrNoRows))
    ensures r.err.None? ==> r.id == st.users[login].id
  {
    if queryFails then IdResult(-1, Some(ErrDatabase))
    else if login in st.users && st.users[login].password == password then IdResult(st.users[login].id, None)
    else IdResult(0, Some(ErrNoRows))
  }

  /** Registering and then logging in with the same credentials yields the new id,
      and a different password is refused. */
  lemma RegisterThenAuthorize(st: Store, login: string, password: string, other: string)
    requires !UserRegister(st, login, password, NoRegisterFaults).failed
    requires other != password
    ensures var r := UserRegister(st, login, password, NoRegisterFaults);
      && UserAuthorization(r.store, login, password, false) == IdResult(r.id, None)
      && UserAuthorization(r.store, login, other, false) == IdResult(0, Some(ErrNoRows))
  {
  }

  /** UserGetBalance. */
  function UserGetBalance(st: Store, user: int, queryFails: bool): (r: Result<Account, LookupError>)
    ensures r.Ok? <==> !queryFails && user in st.accounts
    ensures r.Ok? ==> r.value == st.accounts[user]
  {
    if queryFails then Err(ErrDatabase)
    else if user !in st.accounts then Err(ErrNoRows)
    else Ok(st.accounts[user])
  }

  /** Which of the database steps of UserWithdrawal fail. */
  datatype WithdrawFaults = WithdrawFaults(readFails: bool, beginFails: bool, insertFails: bool, updateFails: bool)

  const NoWithdrawFaults := WithdrawFaults(false, false, false, false)

  /** The withdrawal errors the handler tells apart. */
  datatype WithdrawError = ErrInsufficientBalance | ErrStorage

  /** The store after a committed withdrawal: a journal row with the balance
      left, and the balance moved to withdrawn. */
  function Debited(st: Store, user: int, order: int, sum: int): Store
    requires user in st.accounts
  {
    st.(withdrawals := st.withdrawals + [WithdrawalRow(user, order, sum, st.accounts[user].balance - sum)],
        accounts := BalanceUpdate(st.accounts, user, -sum, sum))
  }

  /** UserWithdrawal. Reading the balance can fail; a balance strictly below the
      sum is ErrInsufficientBalance; the journal insert and the balance update
      share one transaction. When the update fails the transaction is rolled back
      but the call still reports success, so nothing changes and no error is seen. */
  function UserWithdrawal(st: Store, user: int, order: int, sum: int, f: WithdrawFaults): (r: Result<Store, WithdrawError>)
    ensures r == Err(ErrInsufficientBalance)
            <==> !f.readFails && user in st.accounts && st.accounts[user].balance < sum
    ensures r == Err(ErrStorage)
            <==> f.readFails || user !in st.accounts
                 || (st.accounts[user].balance >= sum && (f.beginFails || f.insertFails))
    ensures r.Ok? ==> user in st.accounts && sum <= st.accounts[user].balance
    ensures r.Ok? ==> (r.value == st <==> f.updateFails)
    ensures r.Ok? && !f.updateFails ==> r.value == Debited(st, user, order, sum)
  {
    match UserGetBalance(st, user, f.readFails)
    case Err(_) => Err(ErrStorage)
    case Ok(acc) =>
      if acc.balance < sum then Err(ErrInsufficientBalance)
      else if f.beginFails || f.insertFails then Err(ErrStorage)
      else if f.updateFails then Ok(st)
      else
        var d := Debited(st, user, order, sum);
        assert d.withdrawals != st.withdrawals by { assert |d.withdrawals| == |st.withdrawals| + 1; }
        Ok(d)
  }

  /** A committed withdrawal moves exactly `sum` from balance to withdrawn,
      never leaves the balance negative, journals the balance it leaves, and
      touches no other user. */
  lemma WithdrawalMovesSum(st: Store, user: int, order: int, sum: int, f: WithdrawFaults)
    requires UserWithdrawal(st, user, order, sum, f).Ok?
    requires !f.updateFails
    ensures var s' := UserWithdrawal(st, user, order, sum, f).value;
      && s'.accounts[user].balance == st.accounts[user].balance - sum
      && s'.accounts[user].withdrawn == st.accounts[user].withdrawn + sum
      && s'.accounts[user].balance >= 0
      && s'.withdrawals[|s'.withdrawals| - 1] == WithdrawalRow(user, order, sum, s'.accounts[user].balance)
      && (forall u :: u in st.accounts && u != user ==> s'.accounts[u] == st.accounts[u])
      && s'.orders == st.orders && s'.users == st.users
  {
  }

  /** Withdrawing the whole balance is allowed: the test is strict. */
  lemma WithdrawWholeBalance(st: Store, user: int, order: int)
    requires user in st.accounts
    ensures UserWithdrawal(st, user, order, st.accounts[user].balance, NoWithdrawFaults).Ok?
    ensures UserWithdrawal(st, user, order, st.accounts[user].balance, NoWithdrawFaults).value.accounts[user].balance == 0
  {
  }

  /** Nothing stops a negative sum: such a withdrawal raises the balance. */
  lemma NegativeSumRaisesBalance(st: Store, user: int, order: int, sum: int)
    requires user in st.accounts && st.accounts[user].balance >= 0 && sum < 0
    ensures UserWithdrawal(st, user, order, sum, NoWithdrawFaults).Ok?
    ensures UserWithdrawal(st, user, order, sum, NoWithdrawFaults).value.accounts[user].balance > st.accounts[user].balance
  {
  }

  /** The withdrawals of `user`, newest first (the journal is in commit order). */
  function WithdrawalsOf(ws: seq<WithdrawalRow>, user: int): (r: seq<WithdrawalRow>)
    ensures forall i :: 0 <= i < |r| ==> r[i].user == user
  {
    if |ws| == 0 then []
    else WithdrawalsOf(ws[1..], user) + (if ws[0].user == user then [ws[0]] else [])
  }

  /** The list holds each of the user's journal rows as often as the journal
      does, and nothing else. */
  lemma {:induction false} WithdrawalsOfCounts(ws: seq<WithdrawalRow>, user: int, w: WithdrawalRow)
    ensures multiset(WithdrawalsOf(ws, user))[w] == if w.user == user then multiset(ws)[w] else 0
  {
    if |ws| > 0 {
      WithdrawalsOfCounts(ws[1..], user, w);
      assert ws == [ws[0]] + ws[1..];
      assert multiset(ws) == multiset{ws[0]} + multiset(ws[1..]);
    }
  }

  /** A newly journalled withdrawal comes first in its user's list. */
  lemma {:induction false} WithdrawalsOfAppend(ws: seq<WithdrawalRow>, w: WithdrawalRow, user: int)
    requires w.user == user
    ensures WithdrawalsOf(ws + [w], user) == [w] + WithdrawalsOf(ws, user)
  {
    if |ws| == 0 {
      assert WithdrawalsOf([w][1..], user) == [];
    } else {
      assert (ws + [w])[1..] == ws[1..] + [w];
      WithdrawalsOfAppend(ws[1..], w, user);
    }
  }

  /** UserGetWithdrawals: the user's rows of the journal, each as often as
      it was journalled, or the query's error. */
  function UserGetWithdrawals(st: Store, user: int, queryFails: bool): (r: Result<seq<WithdrawalRow>, LookupError>)
    ensures r.Ok? <==> !queryFails
    ensures r.Ok? ==> forall i :: 0 <= i < |r.value| ==> r.value[i].user == user
    ensures r.Ok? ==> forall w :: multiset(r.value)[w] == if w.user == user then multiset(st.withdrawals)[w] else 0
  {
    if queryFails then Err(ErrDatabase)
    else
      var mine := WithdrawalsOf(st.withdrawals, user);
      assert forall w :: multiset(mine)[w] == if w.user == user then multiset(st.withdrawals)[w] else 0 by {
        forall w ensures multiset(mine)[w] == if w.user == user then multiset(st.withdrawals)[w] else 0 {
          WithdrawalsOfCounts(st.withdrawals, user, w);
        }
      }
      Ok(mine)
  }
}
